=== FILE: README.md ===
# Email confirmation service — a Dafny model of its logic

The email confirmation service keeps one record per confirmation request.
A client posts an email address, a client id, a request id and a callback
URL. The REST API stores a `Queued` record whose primary key is
`email#client_id#request_id` and whose signature key is a fresh UUID. A
separate signature service mints capability tokens: the lowercase hex of the
SHA-256 digest of `|email|client_id|request_id|signature_key|updated_at|`.
When a record turns `Confirmed`, a stream reactor posts the client's
callback, asks the signature service for a token, and PUTs status `Done`
with that token back to the API. A demonstration endpoint receives the
callbacks.

The Dafny modules follow those components:

| file | module | component |
|---|---|---|
| `wrappers.dfy` | `Wrappers` | `Option`, `Result`, `u64` |
| `text.dfy` | `Text` | decimal rendering of integers, `split`/join, `starts_with`, counting |
| `hex.dfy` | `Hex` | `hex::encode` and its decoder |
| `json.dfy` | `Json` | the JSON object bodies the handlers build |
| `confirmation_request.dfy` | `ConfirmationRequests` | the record, its key, the sanitized projections, `Status` |
| `signature_request.dfy` | `SignatureRequests` | signature requests and responses, the constructors from a record |
| `signature_service.dfy` | `SignatureService` | `create_signature`, `verify_signature`, the dispatching handler |
| `rest_api.dfy` | `RestApi` | `result_to_response` and the creation route |
| `callback_reactor.dfy` | `CallbackReactor` | the stream handler of the callback trigger |
| `callback_endpoint.dfy` | `CallbackEndpoint` | the callback receiver |

Everything outside the process is a parameter:
- SHA-256 is any function from the preimage to 32 bytes. Nothing relies on
  collision resistance.
- The clock reading and the fresh UUID are single input values.
- The REST API's storage service is a function from its argument to a
  `Result`.
- The reactor's callback POST, Lambda invoke, status PUT, environment
  variables and `urlencoding::encode` are fields of an `Environment`.
  Each call is a function of its arguments: the same call gets the same
  outcome.
- The reactor returns how the invocation ended (`Ok`, `Err(message)` or a
  panic) and the ordered log of the calls it made.

## Model

| member | source | states |
|---|---|---|
| Text.Decimal | signature-service-lambda/src/event_handler.rs:31-33 | the `{}` rendering of `updated_at` is a non-empty string of digits with no leading zero |
| Text.ParseDecimal | signature-service-lambda/src/event_handler.rs:33 | a numeral is accepted exactly when it is a canonical decimal, and what it accepts is the `{}` rendering of the value it returns |
| Text.DecimalRoundTrip | signature-service-lambda/src/event_handler.rs:33 | parsing the rendering of `n` gives `n`; a numeral that parses to `n` is the rendering of `n` |
| Text.DecimalInjective | signature-service-lambda/src/event_handler.rs:33 | distinct `updated_at` values render as distinct numerals |
| Text.Split | email-confirmation-service-rest-api/src/email_confirmation_request.rs:20 | splitting a key on `#` yields at least one piece and no piece contains `#` |
| Text.SplitJoin | email-confirmation-service-rest-api/src/email_confirmation_request.rs:88-90 | splitting a join of separator-free pieces gives back exactly those pieces |
| Text.JoinSplit | email-confirmation-service-rest-api/src/email_confirmation_request.rs:88-90 | joining the pieces of a split with the separator restores any string |
| Text.JoinInjective | email-confirmation-service-rest-api/src/email_confirmation_request.rs:88-90 | two joins of separator-free pieces are equal only when the pieces are |
| Text.Count | handle-callback-endpoint/src/http_handler.rs:23 | a character count is at most the length, and it is zero exactly when the character is absent |
| Text.CountConcat | handle-callback-endpoint/src/http_handler.rs:23 | counts add up over a concatenation |
| Hex.NibbleValue | signature-service-lambda/src/event_handler.rs:37 | a character is a hex digit value exactly when it is in `0-9a-f`, and it is the encoding of that value |
| Hex.Encode | signature-service-lambda/src/event_handler.rs:37 | the hex of `n` bytes is `2n` lowercase hex characters |
| Hex.Decode | signature-service-lambda/src/event_handler.rs:37 | a successful decode yields half as many bytes as there are characters |
| Hex.DecodeEncode | signature-service-lambda/src/event_handler.rs:37 | decoding the hex of any bytes gives those bytes back |
| Hex.EncodeDecode | signature-service-lambda/src/event_handler.rs:37 | a string that decodes to some bytes is exactly the hex of those bytes |
| Hex.DecodeIffEncode | signature-service-lambda/src/event_handler.rs:37 | a string decodes to some bytes exactly when it is the hex of those bytes |
| Hex.EncodeInjective | signature-service-lambda/src/event_handler.rs:37 | distinct byte strings have distinct hex |
| Json.Field | email-confirmation-service-rest-api/src/handler.rs:62-65 | a field lookup succeeds exactly when some field has that name |
| ConfirmationRequests.ParseStatus | email-confirmation-service-rest-api/src/email_confirmation_request.rs:94-113 | a status name that reads back as a status is that status's `Display` |
| ConfirmationRequests.StatusNameRoundTrip | email-confirmation-service-rest-api/src/email_confirmation_request.rs:103-113 | every status's `Display` (the `StatusName` of each variant) reads back as that status, so distinct statuses print distinctly |
| ConfirmationRequests.PkFromParams | email-confirmation-service-rest-api/src/email_confirmation_request.rs:88-90 | the key is the three parts joined by `#`, so it is two characters longer than they are, and when no part contains `#`, splitting it on `#` gives exactly the three parts |
| ConfirmationRequests.PkInjective | email-confirmation-service-rest-api/src/email_confirmation_request.rs:88-90 | keys built from `#`-free parts are equal only when the parts are |
| ConfirmationRequests.PkCollision | email-confirmation-service-rest-api/src/email_confirmation_request.rs:88-90 | without that condition, two different triples share a key |
| ConfirmationRequests.PkFromQueryParams | email-confirmation-service-rest-api/src/email_confirmation_request.rs:76-86 | a key is returned exactly when email, client id and request id are all present, whatever `expires_after` is; it is `pk_from_params` of them; otherwise the error starts with `Invalid parameters ` |
| ConfirmationRequests.New | email-confirmation-service-rest-api/src/email_confirmation_request.rs:67-74 | the new record is `Queued`, keeps the four given fields and the key, has its key built from its identity fields, and with one clock reading has `created_at = updated_at = now` and expires one hour later |
| ConfirmationRequests.FromMinimal | email-confirmation-service-rest-api/src/email_confirmation_request.rs:45-49 | the minimal request is recovered from the record it converts to, and that record is well formed and `Queued` |
| ConfirmationRequests.Sanitize | email-confirmation-service-rest-api/src/email_confirmation_request.rs:51-65 | the sanitized record plus the original signature key is the original record |
| ConfirmationRequests.SanitizeForgetsOnlyKey | email-confirmation-service-rest-api/src/email_confirmation_request.rs:51-65 | two records sanitize alike exactly when they differ at most in their signature key |
| ConfirmationRequests.PublicViewIgnoresKey | handle-email-link-click-endpoint/src/email_confirmation_request.rs:4-19 | the shared crate's `EmailConfirmationServiceApiResponse`, which the reactor decodes from the answer to its status PUT and which is taken to be the link-click crate's declaration, has no signature key, so nothing decoded into it depends on the key |
| SignatureRequests.FromVerification | signature-service-lambda/src/signature_request.rs:40-50 | the conversion drops the value to check and nothing else: attaching it again restores the verification data |
| SignatureRequests.FromVerificationOfWithSignatureValue | signature-service-lambda/src/signature_request.rs:21-50 | attaching any value to creation data and converting back gives that creation data |
| SignatureRequests.SignatureCreationRequestOf | send-email-event-lambda/src/signature_request.rs:71-85 | the creation request carries the creation tag with a creation payload holding the record's email, client id, request id, `updated_at` and signature key |
| SignatureRequests.SignatureVerificationRequestOf | send-email-event-lambda/src/signature_request.rs:54-69 | the verification request carries the verification tag with a verification payload holding the same five fields and the given signature |
| SignatureRequests.VerificationPayloadConvertsToCreationPayload | send-email-event-lambda/src/signature_request.rs:41-85 | converting a record's verification payload gives exactly its creation payload |
| SignatureRequests.RequestsDependOnlyOnSigningFields | send-email-event-lambda/src/signature_request.rs:54-85 | records that agree on the five signing fields get the same requests, whatever their key, callback URL, other timestamps or status |
| SignatureService.Preimage | signature-service-lambda/src/event_handler.rs:33 | the preimage is the five fields joined by `|`, with a `|` at each end |
| SignatureService.PreimageSplits | signature-service-lambda/src/event_handler.rs:33 | when no field contains `|`, splitting the preimage on `|` gives an empty piece, the five fields, and an empty piece |
| SignatureService.PreimageRoundTrip | signature-service-lambda/src/event_handler.rs:33 | when no field contains `|`, the preimage parses back to the data it was built from |
| SignatureService.PreimageInjective | signature-service-lambda/src/event_handler.rs:33 | distinct `|`-free data have distinct preimages |
| SignatureService.PreimageDistinguishesUpdatedAt | signature-service-lambda/src/event_handler.rs:31-33 | with the other four fields fixed, distinct `updated_at` values give distinct preimages, whatever the fields contain |
| SignatureService.CreateSignature | signature-service-lambda/src/event_handler.rs:26-40 | a token is 64 lowercase hex characters and decodes to the digest of the preimage |
| SignatureService.VerifySignature | signature-service-lambda/src/event_handler.rs:42-50 | verification succeeds exactly when the value decodes to the digest of the preimage of the other five fields |
| SignatureService.VerifyAcceptsOnlyTheSignature | signature-service-lambda/src/event_handler.rs:42-50 | verification succeeds exactly when the value equals the token minted for the same five fields |
| SignatureService.SignThenVerify | signature-service-lambda/src/event_handler.rs:42-50 | the token just minted for some fields verifies against them |
| SignatureService.MalformedValueFails | signature-service-lambda/src/event_handler.rs:45-48 | a value that is not 64 lowercase hex characters never verifies |
| SignatureService.UuidNeverVerifies | signature-service-lambda/src/event_handler.rs:111-131 | a UUID's text (36 characters, hyphens at 8, 13, 18, 23) never verifies |
| SignatureService.FunctionHandler | signature-service-lambda/src/event_handler.rs:9-24 | the handler answers exactly when tag and payload agree, with a signature for creation and a verification result for verification, and otherwise fails with `Invalid request` |
| SignatureService.RecordTokenRoundTrip | signature-service-lambda/src/event_handler.rs:9-50 | the token the service mints for a record's creation request verifies in that record's verification request |
| RestApi.ErrorBodyReadsBack | email-confirmation-service-rest-api/src/handler.rs:58-75 | an error body reads back as `error: true` and the message |
| RestApi.ResultToResponse | email-confirmation-service-rest-api/src/handler.rs:55-77 | the status is 200, 404 or 400; 200 exactly for a success, whose body passes through; an error gets 404 exactly when its message starts with the not-found prefix, and its body is exactly the object `{error: true, message: <error>}` |
| RestApi.PostEmailConfirmationRequest | email-confirmation-service-rest-api/src/handler.rs:21-28 | the service is called with a well-formed `Queued` record converted from the posted request, and its outcome is mapped as above |
| CallbackReactor.TriggerCallback | trigger-callback-event-lambda/src/event_handler.rs:64-76 | the callback is one POST of `{email, Confirmed}` to the record's URL; it never returns an error and succeeds unless the transport panics |
| CallbackReactor.CreateSignature | trigger-callback-event-lambda/src/event_handler.rs:78-102 | without the function name nothing is invoked and it fails; otherwise it invokes once with the record's creation request, and returns a token exactly when the answer is a `Signature`, that very token; a failed invoke or an unreadable payload panics, while a missing payload or a verification answer is the signature error |
| CallbackReactor.SetStatusToDone | trigger-callback-event-lambda/src/event_handler.rs:104-125 | without the URL or key nothing is sent; otherwise one PUT of `{status: Done, signature}` to the record's status route, which succeeds exactly when the answer decodes with `error` false, and fails with the service error exactly when the flag is true; a failed send panics, while an undecodable answer is the decode error |
| CallbackReactor.ProcessRecord | trigger-callback-event-lambda/src/event_handler.rs:35-59 | a non-`MODIFY`, non-DynamoDB or non-`Confirmed` record ends the invocation with `Ok` and no calls; an undecodable image panics; a confirmed one posts the callback first, and a transport panic there ends the invocation with a panic; once the callback is answered, the log is the POST, the signing calls and (only after a token) the PUT calls, and the step is fixed by them: a panic stops with a panic, an error from signing or from the PUT stops with that error, and only a successful PUT goes on to the next record |
| CallbackReactor.FunctionHandler | trigger-callback-event-lambda/src/event_handler.rs:29-62 | each record costs at most three calls; beyond that the handler's result is fixed by StoppingRecordEndsBatch, ContinuingRecordPassesOn, EndingRecordCutsBatch and ServedBatchCompletes below |
| CallbackReactor.StoppingRecordEndsBatch | trigger-callback-event-lambda/src/event_handler.rs:35-59 | a record whose processing stops decides how the invocation ends, and its calls are the whole rest of the log |
| CallbackReactor.ContinuingRecordPassesOn | trigger-callback-event-lambda/src/event_handler.rs:35-61 | after a record that goes on, the invocation ends as the rest of the batch does, and the log is that record's calls followed by the rest's |
| CallbackReactor.ServedRecordContinues | trigger-callback-event-lambda/src/event_handler.rs:49-55 | a confirmed record whose callback is answered, whose invoke returns a `Signature` and whose PUT is answered without error makes exactly three calls — the POST, the invoke with its creation request, the PUT of `Done` with that token to its status route — and goes on |
| CallbackReactor.ServedBatchCompletes | trigger-callback-event-lambda/src/event_handler.rs:29-62 | a batch of such records ends with `Ok`, makes three calls per record, and the calls of the `k`-th record are its callback POST first and its status PUT third |
| CallbackReactor.EndingRecordCutsBatch | trigger-callback-event-lambda/src/event_handler.rs:35-47 | the first record that is not a confirmed `MODIFY` from DynamoDB ends the invocation with `Ok`: the records after it are never looked at |
| CallbackReactor.EffectsComeFromConfirmedRecords | trigger-callback-event-lambda/src/event_handler.rs:36-54 | every call in the log is made for a confirmed `MODIFY` record of the batch: its callback, its creation request, its status route |
| CallbackReactor.DoneOnlyAfterCallbackAndToken | trigger-callback-event-lambda/src/event_handler.rs:49-55 | every status PUT directly follows a callback that got a response and an invoke that returned a token, and it carries that token |
| CallbackReactor.MintedTokenVerifies | trigger-callback-event-lambda/src/event_handler.rs:78-102 | when the invoke reaches the real signature service, the token the reactor gets verifies against the record it read |
| CallbackEndpoint.Respond | handle-callback-endpoint/src/http_handler.rs:19-26 | the response has status 200, JSON content type, and its body is the message frame around the given text |
| CallbackEndpoint.FunctionHandler | handle-callback-endpoint/src/http_handler.rs:3-17 | as written, through `respond`: a method other than POST is an error whose message frames that method; a POST gets 200 with JSON content type, and its body holds the request body, or the placeholder when that is empty, between the message's opening and its closing quote |
| CallbackEndpoint.ResponsesIdentifyBodies | handle-callback-endpoint/src/http_handler.rs:9-16 | distinct non-empty bodies get distinct responses, while an empty body and a body that is the placeholder get the same one |
| CallbackEndpoint.RespondEndsUnclosed | handle-callback-endpoint/src/http_handler.rs:23 | the body as written opens with `{` but always ends with the message's closing quote, never with `}` |
| CallbackEndpoint.RespondLeavesBraceOpen | handle-callback-endpoint/src/http_handler.rs:23 | the body as written has one more `{` than the quoted text and as many `}`, so it is unbalanced whenever the quoted text is balanced |
| CallbackEndpoint.RespondClosed | handle-callback-endpoint/src/http_handler.rs:19-26 | with the closing brace added, the body still quotes the text, opens with `{` and ends with `}`, and its braces balance whenever the quoted text's do |
| CallbackEndpoint.FunctionHandlerClosed | handle-callback-endpoint/src/http_handler.rs:3-26 | the handler with the closing brace added accepts and rejects exactly what the handler as written does, with the same errors, and its body is the written one plus `}`, quoting the request body or the placeholder |

## Left out

- SHA-256 is an arbitrary function to 32 bytes. No property relies on collision resistance, so nothing claims that changing a field makes a verification fail.
- The network, the Lambda runtime and `aws_config` are parameters. So are environment variables, JSON and DynamoDB (de)serialization, and `urlencoding::encode`. An undecodable stream image is the `None` new image, and the source's `unwrap` on it is a panic.
- The reactor's oracles are functions of their arguments: a repeated call gets the same outcome. Retries, at-least-once delivery and concurrent redelivery of stream batches are outside a sequential model.
- `SystemTime::now()` is read three times in `new`; the model takes one reading `now`. The fresh UUID is the `signature_key` input.
- ConfirmationRequests.New: requires `now + 3600` to stay within the u64 range of `as_secs`. This is weaker than the source's own limit: on Unix, `SystemTime + Duration` already panics when its signed 64-bit seconds field overflows, and that lower panic point is not modelled.
- The storage service of the REST API is not part of this model: its methods are stubs returning fixed strings. Each route is `result_to_response` of the service's answer. Only the creation route, which converts its argument first, is modelled apart. The get, delete and put routes are that function applied to a service call.
- `NOT_FOUND_ERROR` is imported from the storage service module, whose text here does not declare it. It is the `notFoundPrefix` parameter.
- The callback reactor imports `EmailConfirmationRequest`, `Status`, `EmailConfirmationServiceApiResponse`, `SignatureRequest` and `SignatureResponse` from a shared crate, `email_confirmation_service_common`, which is not part of this model. The model takes them to be the REST API crate's record and status, the link-click crate's response shape, and the signature-request types and constructors of the send-email and signature service crates. A divergence in the shared crate's declarations would not be seen.
- `QueryParams` has the four optional fields `pk_from_query_params` destructures. The declared struct in `handler_params.rs` has other fields and does not match its use.
- The error text of `pk_from_query_params` uses Rust's `Debug` rendering of the parameters. The model renders strings quoted but does not model `Debug`'s escaping of quotes and control characters. Its contract only promises the `Invalid parameters ` prefix.
- `trigger_callback` never returns an error: any HTTP response counts as success, and a transport failure panics. The handler's arm that logs a failed callback and goes on to the next record is therefore unreachable. The model keeps it as a dead branch.
- The send-email stream handler is a stub with its body commented out, so the `Queued` to `Pending` transition is not modelled. The link-click HTTP handler is a GET passthrough; only its record shapes are modelled.
- `from_utf8_lossy` in the callback endpoint: the body is taken as already-decoded text. `Response::builder` with a constant status and header never fails, so that error path is not modelled.
- The order of fields inside `json!` objects is kept as written. The handlers never depend on it.
- Tracing, logging, `main.rs` files and the CDK stacks are deployment wiring.

## Findings

| source | as written | input that shows it | evidently intended | confidence | as-written member | corrected member |
|---|---|---|---|---|---|---|
| handle-callback-endpoint/src/http_handler.rs:23 | the response body is `{ "message":"Confirmation for '<body>' received."` with no closing brace, although the content type is `application/json` | a POST with body `ok` gets a response with one `{` and no `}` | the object is closed: `{ "message":"Confirmation for '<body>' received."}` | high, not executed | CallbackEndpoint.RespondEndsUnclosed | CallbackEndpoint.FunctionHandlerClosed |

=== FILE: callback_endpoint.dfy ===
/** The callback receiver (`handle-callback-endpoint/src/http_handler.rs`):
    a demonstration target for the reactor's callbacks. It refuses every
    method but POST and answers a POST with a JSON-typed message that quotes
    the request body, or a placeholder when the body is empty. The body
    arrives already decoded to text.

    The format string of `respond` never closes the JSON object it opens.
    `Respond` and `FunctionHandler` keep that as written, and
    `RespondEndsUnclosed` and `RespondLeavesBraceOpen` show the defect;
    `RespondClosed` and `FunctionHandlerClosed` add the missing brace. */
module CallbackEndpoint {
  import opened Wrappers
  import opened Text

  const PostMethod: string := "POST"
  const NoBodyPlaceholder: string := " -- No body found in request -- "
  const JsonContentType: string := "application/json"
  const MessageLead: string := " \"message\":\"Confirmation for '"
  const MessagePrefix: string := "{" + MessageLead
  const MessageSuffix: string := "' received.\""
  const MethodErrorPrefix: string := "Invalid method: "
  const MethodErrorSuffix: string := ". Callback request should use POST."

  datatype Response = Response(status: nat, content_type: string, body: string)

  /** The text between `prefix` and `suffix`, when `s` is framed by them. */
  function Between(s: string, prefix: string, suffix: string): (r: Option<string>)
    ensures r.Some? ==> s == prefix + r.value + suffix
  {
    if |prefix| + |suffix| <= |s| && s[..|prefix|] == prefix && s[|s| - |suffix|..] == suffix then
      var inner := s[|prefix|..|s| - |suffix|];
      assert s == s[..|prefix|] + inner + s[|s| - |suffix|..];
      Some(inner)
    else None
  }

  lemma BetweenFrame(prefix: string, inner: string, suffix: string)
    ensures Between(prefix + inner + suffix, prefix, suffix) == Some(inner)
  {
    var s := prefix + inner + suffix;
    assert s[..|prefix|] == prefix;
    assert s[|s| - |suffix|..] == suffix;
    assert s[|prefix|..|s| - |suffix|] == inner;
  }

  /** The error for a method other than POST. */
  function MethodError(request_method: string): string {
    MethodErrorPrefix + request_method + MethodErrorSuffix
  }

  /** The end of a message body once its object is closed. */
  const ClosedSuffix: string := MessageSuffix + "}"

  /** The text a closed message response quotes. */
  function QuotedIn(responseBody: string): Option<string> {
    Between(responseBody, MessagePrefix, ClosedSuffix)
  }

  /** `respond`, as written: status 200, JSON content type, and a body that
      quotes its argument. The format string has no closing brace. */
  function Respond(body: string): (r: Response)
    ensures r.status == 200 && r.content_type == JsonContentType
    ensures Between(r.body, MessagePrefix, MessageSuffix) == Some(body)
  {
    BetweenFrame(MessagePrefix, body, MessageSuffix);
    Response(200, JsonContentType, MessagePrefix + body + MessageSuffix)
  }

  /** `function_handler`, as written: a non-POST method is an error naming
      the method; a POST is answered through `respond` with 200 quoting the
      body, or the placeholder when the body is empty. */
  function FunctionHandler(request_method: string, body: string): (r: Result<Response, string>)
    ensures r.Ok? <==> request_method == PostMethod
    ensures r.Err? ==> Between(r.error, MethodErrorPrefix, MethodErrorSuffix) == Some(request_method)
    ensures r.Ok? ==> r.value.status == 200 && r.value.content_type == JsonContentType
    ensures r.Ok? && body != "" ==> Between(r.value.body, MessagePrefix, MessageSuffix) == Some(body)
    ensures r.Ok? && body == "" ==> Between(r.value.body, MessagePrefix, MessageSuffix) == Some(NoBodyPlaceholder)
  {
    if request_method != PostMethod then
      BetweenFrame(MethodErrorPrefix, request_method, MethodErrorSuffix);
      Err(MethodError(request_method))
    else if body != "" then Ok(Respond(body))
    else Ok(Respond(NoBodyPlaceholder))
  }

  /** Distinct non-empty bodies get distinct responses, but an empty body and
      a body that is literally the placeholder get the same one. */
  lemma ResponsesIdentifyBodies(b1: string, b2: string)
    ensures b1 != "" && b2 != "" && b1 != b2 ==> FunctionHandler(PostMethod, b1) != FunctionHandler(PostMethod, b2)
    ensures FunctionHandler(PostMethod, "") == FunctionHandler(PostMethod, NoBodyPlaceholder)
  {
  }

  lemma CountFrame(prefix: string, inner: string, suffix: string, c: char)
    ensures Count(prefix + inner + suffix, c) == Count(prefix, c) + Count(inner, c) + Count(suffix, c)
  {
    CountConcat(prefix + inner, suffix, c);
    CountConcat(prefix, inner, c);
  }

  /** A frame that opens with `{` and has no other brace counts one `{` and no `}`. */
  lemma OpeningBraceOnly(lead: string, suffix: string)
    requires '{' !in lead && '}' !in lead && '{' !in suffix && '}' !in suffix
    ensures Count("{" + lead, '{') == 1 && Count("{" + lead, '}') == 0
    ensures Count(suffix, '{') == 0 && Count(suffix, '}') == 0
  {
    CountConcat("{", lead, '{');
    CountConcat("{", lead, '}');
  }

  /** The body as written ends with the closing quote of the message, never
      with the `}` that would close the object it opens with. */
  lemma RespondEndsUnclosed(body: string)
    ensures Respond(body).body[0] == '{'
    ensures Respond(body).body[|Respond(body).body| - 1] == '"'
  {
  }

  /** A frame whose prefix brings one unmatched `{` adds exactly that to
      whatever it wraps. */
  lemma OpenFrameCounts(prefix: string, inner: string, suffix: string)
    requires Count(prefix, '{') == 1 && Count(prefix, '}') == 0
    requires Count(suffix, '{') == 0 && Count(suffix, '}') == 0
    ensures Count(prefix + inner + suffix, '{') == Count(inner, '{') + 1
    ensures Count(prefix + inner + suffix, '}') == Count(inner, '}')
  {
    CountFrame(prefix, inner, suffix, '{');
    CountFrame(prefix, inner, suffix, '}');
  }

  lemma FrameBraces()
    ensures Count(MessagePrefix, '{') == 1 && Count(MessagePrefix, '}') == 0
    ensures Count(MessageSuffix, '{') == 0 && Count(MessageSuffix, '}') == 0
  {
    OpeningBraceOnly(MessageLead, MessageSuffix);
  }

  /** The response body as written opens one more brace than it closes, so
      whenever the quoted text's braces balance (for a body like `ok`) the
      response's do not, and it is not a JSON document despite its content
      type. */
  lemma RespondLeavesBraceOpen(body: string)
    ensures Count(Respond(body).body, '{') == Count(body, '{') + 1
    ensures Count(Respond(body).body, '}') == Count(body, '}')
    ensures Count(body, '{') == Count(body, '}') ==> Count(Respond(body).body, '{') != Count(Respond(body).body, '}')
  {
    var b := Respond(body).body;
    assert b == MessagePrefix + body + MessageSuffix;
    FrameBraces();
    OpenFrameCounts(MessagePrefix, body, MessageSuffix);
  }

  /** Closing a frame that left one `{` open balances it around balanced
      text, and the closed frame still quotes that text. */
  lemma ClosedFrame(prefix: string, inner: string, suffix: string)
    requires |prefix| >= 1
    requires Count(prefix, '{') == 1 && Count(prefix, '}') == 0
    requires Count(suffix, '{') == 0 && Count(suffix, '}') == 0
    ensures Between(prefix + inner + (suffix + "}"), prefix, suffix + "}") == Some(inner)
    ensures prefix + inner + suffix + "}" == prefix + inner + (suffix + "}")
    ensures Count(inner, '{') == Count(inner, '}') ==>
              Count(prefix + inner + suffix + "}", '{') == Count(prefix + inner + suffix + "}", '}')
    ensures (prefix + inner + suffix + "}")[0] == prefix[0]
    ensures (prefix + inner + suffix + "}")[|prefix + inner + suffix + "}"| - 1] == '}'
  {
    OpenFrameCounts(prefix, inner, suffix);
    CountConcat(prefix + inner + suffix, "}", '{');
    CountConcat(prefix + inner + suffix, "}", '}');
    BetweenFrame(prefix, inner, suffix + "}");
  }

  /** `respond` with the closing brace the format string evidently meant:
      the as-written body followed by `}`, which balances the braces of any
      quoted text whose own braces balance. */
  function RespondClosed(body: string): (r: Response)
    ensures r.status == 200 && r.content_type == JsonContentType
    ensures r.body == Respond(body).body + "}"
    ensures QuotedIn(r.body) == Some(body)
    ensures Count(body, '{') == Count(body, '}') ==> Count(r.body, '{') == Count(r.body, '}')
    ensures r.body[0] == '{' && r.body[|r.body| - 1] == '}'
  {
    assert MessagePrefix[0] == '{';
    FrameBraces();
    ClosedFrame(MessagePrefix, body, MessageSuffix);
    Response(200, JsonContentType, MessagePrefix + body + MessageSuffix + "}")
  }

  /** `function_handler` answering through `RespondClosed`: the same
      decisions as the handler as written, with every POST answer closed by
      the brace the format string lacks. */
  function FunctionHandlerClosed(request_method: string, body: string): (r: Result<Response, string>)
    ensures r.Ok? <==> FunctionHandler(request_method, body).Ok?
    ensures r.Err? ==> r == FunctionHandler(request_method, body)
    ensures r.Ok? ==> r.value.status == 200 && r.value.content_type == JsonContentType
    ensures r.Ok? ==> r.value.body == FunctionHandler(request_method, body).value.body + "}"
    ensures r.Ok? && body != "" ==> QuotedIn(r.value.body) == Some(body)
    ensures r.Ok? && body == "" ==> QuotedIn(r.value.body) == Some(NoBodyPlaceholder)
  {
    if request_method != PostMethod then Err(MethodError(request_method))
    else if body != "" then Ok(RespondClosed(body))
    else Ok(RespondClosed(NoBodyPlaceholder))
  }
}

=== FILE: callback_reactor.dfy ===
/** The callback reactor (`trigger-callback-event-lambda/src/event_handler.rs`):
    for each change record of a stream batch, in order, it stops the whole
    batch at the first record that is not a `MODIFY` from `aws:dynamodb` whose
    new image is `Confirmed`; for a record that is, it posts the callback, and
    when the callback got any response it asks the signature service for a token
    and PUTs status `Done` with that token to the REST API.

    Every call that leaves the process is an oracle held in `Environment`:
    the callback POST, the Lambda invoke of the signature service, and the
    status PUT, together with the three environment variables and
    `urlencoding::encode`. The handler returns how the invocation ended and
    the log of calls it made, in order. A panic (`unwrap`, `expect`) ends the
    invocation as `Panicked`. */
module CallbackReactor {
  import opened Wrappers
  import opened Json
  import opened ConfirmationRequests
  import opened SignatureRequests
  import SignatureService

  const ModifyEventName: string := "MODIFY"
  const DynamoDbEventSource: string := "aws:dynamodb"

  const SignatureError: string := "Error creating signature"
  const ServiceError: string := "Email confirmation service error"
  /** The display of `std::env::VarError::NotPresent`. */
  const MissingVariableError: string := "environment variable not found"
  /** The error `response.json()` raises when the body is not an API response. */
  const DecodeError: string := "error decoding response body"

  /** A DynamoDB stream record, reduced to what the handler reads. The new
      image is `None` when it does not deserialize into a record. */
  datatype StreamRecord = StreamRecord(
    event_name: string,
    event_source: Option<string>,
    new_image: Option<ConfirmationRequest>)

  /** `ConfirmationMessage`: the JSON body of the callback. */
  datatype ConfirmationMessage = ConfirmationMessage(email: string, status: Status)

  /** How the callback POST went: it got an HTTP response (whatever its
      status, which `trigger_callback` never looks at), or it failed in
      transport and the `unwrap` panicked. */
  datatype CallbackOutcome = Delivered | CallbackCrashed

  /** How the Lambda invoke of the signature service went: its `unwrap`
      panicked, the response had no payload, the payload was not a
      `SignatureResponse` (its `expect` panics), or it decoded. */
  datatype InvokeOutcome = InvokeCrashed | NoPayload | Undecodable | Decoded(response: SignatureResponse)

  /** How the status PUT went: its `unwrap` panicked, the body was not an
      `EmailConfirmationServiceApiResponse`, or it decoded. */
  datatype PutOutcome = PutCrashed | PutUndecodable | PutAnswered(response: ApiResponse)

  datatype Environment = Environment(
    signature_function_name: Option<string>,  // SIGNATURE_SERVICE_LAMBDA_FUNCTION_NAME
    service_url: Option<string>,              // EMAIL_CONFIRMATION_REQUEST_SERVICE_URL
    api_key: Option<string>,                  // EMAIL_CONFIRMATION_REQUEST_SERVICE_INTERNAL_API_KEY
    url_encode: string -> string,
    post_callback: (string, ConfirmationMessage) -> CallbackOutcome,
    invoke: (string, SignatureRequest) -> InvokeOutcome,
    put: (string, string, Json) -> PutOutcome)

  /** A call the handler made: the callback POST (URL, body), the signature
      service invoke (function name, request), the status PUT (URL, API key,
      body). */
  datatype Effect =
    | CallbackPosted(url: string, message: ConfirmationMessage)
    | SignatureInvoked(function_name: string, request: SignatureRequest)
    | StatusPut(url: string, api_key: string, body: Json)

  /** How an invocation of the handler ended: `Ok(())`, `Err(message)`, or a panic. */
  datatype Completion = Completed | Failed(message: string) | Panicked

  /** How a helper ended: it returned a value, returned an error, or panicked. */
  datatype Attempt<T> = Returned(value: T) | Raised(message: string) | Crashed

  /** A helper's outcome with the calls it made. */
  datatype Call<T> = Call(attempt: Attempt<T>, effects: seq<Effect>)

  /** The callback body: the record's email with status `Confirmed`. */
  function CallbackMessage(r: ConfirmationRequest): ConfirmationMessage {
    ConfirmationMessage(r.email, Confirmed)
  }

  /** `trigger_callback`: POSTs the message to the record's callback URL.
      It never returns an error: any response counts as success, and only a
      transport failure (a panic) stops it. */
  function TriggerCallback(env: Environment, r: ConfirmationRequest): (c: Call<()>)
    ensures c.effects == [CallbackPosted(r.callback_url, CallbackMessage(r))]
    ensures !c.attempt.Raised?
    ensures c.attempt.Returned? <==> env.post_callback(r.callback_url, CallbackMessage(r)) == Delivered
  {
    var effects := [CallbackPosted(r.callback_url, CallbackMessage(r))];
    match env.post_callback(r.callback_url, CallbackMessage(r))
    case Delivered => Call(Returned(()), effects)
    case CallbackCrashed => Call(Crashed, effects)
  }

  /** `create_signature`: invokes the signature service with the record's
      creation request. It returns a token only when the function name is
      configured and the service answered with a `Signature`, and then
      returns exactly that signature. */
  function CreateSignature(env: Environment, r: ConfirmationRequest): (c: Call<string>)
    ensures env.signature_function_name.None? ==> c == Call(Raised(SignatureError), [])
    ensures env.signature_function_name.Some? ==>
              c.effects == [SignatureInvoked(env.signature_function_name.value, SignatureCreationRequestOf(r))]
    ensures c.attempt.Returned? <==>
              && env.signature_function_name.Some?
              && var outcome := env.invoke(env.signature_function_name.value, SignatureCreationRequestOf(r));
                 outcome.Decoded? && outcome.response.Signature?
    ensures c.attempt.Returned? ==>
              env.invoke(env.signature_function_name.value, SignatureCreationRequestOf(r))
              == Decoded(Signature(c.attempt.value))
    ensures c.attempt.Raised? ==> c.attempt.message == SignatureError
    ensures env.signature_function_name.Some? ==>
              var outcome := env.invoke(env.signature_function_name.value, SignatureCreationRequestOf(r));
              && (outcome.InvokeCrashed? || outcome.Undecodable? ==> c.attempt.Crashed?)
              && (outcome.NoPayload? || (outcome.Decoded? && outcome.response.VerificationResult?) ==>
                    c.attempt == Raised(SignatureError))
  {
    match env.signature_function_name
    case None => Call(Raised(SignatureError), [])
    case Some(name) =>
      var request := SignatureCreationRequestOf(r);
      var effects := [SignatureInvoked(name, request)];
      match env.invoke(name, request)
      case InvokeCrashed => Call(Crashed, effects)
      case NoPayload => Call(Raised(SignatureError), effects)
      case Undecodable => Call(Crashed, effects)
      case Decoded(Signature(signature)) => Call(Returned(signature), effects)
      case Decoded(VerificationResult(_)) => Call(Raised(SignatureError), effects)
  }

  /** The REST API route that sets a record's status. */
  function StatusUrl(service_url: string, encoded_pk: string): string {
    service_url + "/email-confirmation-requests/" + encoded_pk + "/status"
  }

  /** `{"status": "Done", "signature": signature}`. */
  function DoneBody(signature: string): Json {
    JObject([("status", JString(StatusName(Done))), ("signature", JString(signature))])
  }

  /** `set_status_to_done`: PUTs status `Done` with the token. It succeeds
      exactly when both variables are set and the API answered with its
      `error` flag false; an answer with the flag set is an error. */
  function SetStatusToDone(env: Environment, r: ConfirmationRequest, signature: string): (c: Call<()>)
    ensures env.service_url.None? || env.api_key.None? ==> c == Call(Raised(MissingVariableError), [])
    ensures env.service_url.Some? && env.api_key.Some? ==>
              c.effects == [StatusPut(StatusUrl(env.service_url.value, env.url_encode(r.pk)),
                                      env.api_key.value, DoneBody(signature))]
    ensures c.attempt.Returned? <==>
              && env.service_url.Some? && env.api_key.Some?
              && var outcome := env.put(StatusUrl(env.service_url.value, env.url_encode(r.pk)),
                                        env.api_key.value, DoneBody(signature));
                 outcome.PutAnswered? && !outcome.response.error
    ensures env.service_url.Some? && env.api_key.Some? ==>
              var outcome := env.put(StatusUrl(env.service_url.value, env.url_encode(r.pk)),
                                     env.api_key.value, DoneBody(signature));
              outcome.PutAnswered? ==> (c.attempt == Raised(ServiceError) <==> outcome.response.error)
    ensures env.service_url.Some? && env.api_key.Some? ==>
              var outcome := env.put(StatusUrl(env.service_url.value, env.url_encode(r.pk)),
                                     env.api_key.value, DoneBody(signature));
              && (outcome.PutCrashed? ==> c.attempt.Crashed?)
              && (outcome.PutUndecodable? ==> c.attempt == Raised(DecodeError))
  {
    if env.service_url.None? || env.api_key.None? then Call(Raised(MissingVariableError), [])
    else
      var url := StatusUrl(env.service_url.value, env.url_encode(r.pk));
      var body := DoneBody(signature);
      var effects := [StatusPut(url, env.api_key.value, body)];
      match env.put(url, env.api_key.value, body)
      case PutCrashed => Call(Crashed, effects)
      case PutUndecodable => Call(Raised(DecodeError), effects)
      case PutAnswered(response) =>
        if response.error then Call(Raised(ServiceError), effects) else Call(Returned(()), effects)
  }

  /** A record the handler acts on: a `MODIFY` from DynamoDB whose new image
      decodes and is `Confirmed`. */
  predicate Qualifies(rec: StreamRecord) {
    && rec.event_name == ModifyEventName
    && rec.event_source == Some(DynamoDbEventSource)
    && rec.new_image.Some?
    && rec.new_image.value.status == Confirmed
  }

  /** A record on which the handler returns `Ok(())` at once: not a
      `MODIFY`, not from DynamoDB, or an image whose status is not `Confirmed`. */
  predicate EndsBatch(rec: StreamRecord) {
    || rec.event_name != ModifyEventName
    || rec.event_source != Some(DynamoDbEventSource)
    || (rec.new_image.Some? && rec.new_image.value.status != Confirmed)
  }

  /** What the loop does after a record: go on, or end the invocation. */
  datatype Step = Continue | Stop(completion: Completion)

  datatype Processed = Processed(step: Step, effects: seq<Effect>)

  /** One iteration of the loop of `function_handler`. */
  function ProcessRecord(env: Environment, rec: StreamRecord): (p: Processed)
    ensures EndsBatch(rec) ==> p == Processed(Stop(Completed), [])
    ensures !EndsBatch(rec) && !Qualifies(rec) ==> p == Processed(Stop(Panicked), [])
    ensures Qualifies(rec) ==>
              var img := rec.new_image.value;
              var posted := CallbackPosted(img.callback_url, CallbackMessage(img));
              env.post_callback(img.callback_url, CallbackMessage(img)) == CallbackCrashed ==>
                p == Processed(Stop(Panicked), [posted])
    ensures Qualifies(rec) ==>
              var img := rec.new_image.value;
              var posted := CallbackPosted(img.callback_url, CallbackMessage(img));
              var signing := CreateSignature(env, img);
              env.post_callback(img.callback_url, CallbackMessage(img)) == Delivered ==>
                && (signing.attempt.Crashed? ==> p == Processed(Stop(Panicked), [posted] + signing.effects))
                && (signing.attempt.Raised? ==>
                      p == Processed(Stop(Failed(signing.attempt.message)), [posted] + signing.effects))
    ensures Qualifies(rec) ==>
              var img := rec.new_image.value;
              var posted := CallbackPosted(img.callback_url, CallbackMessage(img));
              var signing := CreateSignature(env, img);
              env.post_callback(img.callback_url, CallbackMessage(img)) == Delivered && signing.attempt.Returned? ==>
                var done := SetStatusToDone(env, img, signing.attempt.value);
                && p.effects == [posted] + signing.effects + done.effects
                && (done.attempt.Returned? ==> p.step == Continue)
                && (done.attempt.Raised? ==> p.step == Stop(Failed(done.attempt.message)))
                && (done.attempt.Crashed? ==> p.step == Stop(Panicked))
  {
    if rec.event_name != ModifyEventName then Processed(Stop(Completed), [])
    else if rec.event_source != Some(DynamoDbEventSource) then Processed(Stop(Completed), [])
    else if rec.new_image.None? then Processed(Stop(Panicked), [])
    else
      var img := rec.new_image.value;
      if img.status != Confirmed then Processed(Stop(Completed), [])
      else
        var callback := TriggerCallback(env, img);
        match callback.attempt
        case Crashed => Processed(Stop(Panicked), callback.effects)
        case Raised(_) =>
          // the logging arm of the source; `trigger_callback` never takes it
          assert false; Processed(Continue, callback.effects)
        case Returned(_) =>
          var signing := CreateSignature(env, img);
          var effects := callback.effects + signing.effects;
          match signing.attempt
          case Crashed => Processed(Stop(Panicked), effects)
          case Raised(message) => Processed(Stop(Failed(message)), effects)
          case Returned(signature) =>
            var done := SetStatusToDone(env, img, signature);
            var all := effects + done.effects;
            match done.attempt
            case Crashed => Processed(Stop(Panicked), all)
            case Raised(message) => Processed(Stop(Failed(message)), all)
            case Returned(_) => Processed(Continue, all)
  }

  /** `function_handler`: the records in order until one stops the invocation.
      Each record costs at most three calls: the callback, the invoke and the
      PUT. */
  function FunctionHandler(env: Environment, records: seq<StreamRecord>): (r: (Completion, seq<Effect>))
    ensures |r.1| <= 3 * |records|
  {
    if |records| == 0 then (Completed, [])
    else
      var p := ProcessRecord(env, records[0]);
      match p.step
      case Stop(completion) => (completion, p.effects)
      case Continue =>
        var rest := FunctionHandler(env, records[1..]);
        (rest.0, p.effects + rest.1)
  }

  /** The first record that is not a confirmed `MODIFY` from DynamoDB ends
      the invocation: the records after it are never looked at, whatever
      they are. */
  lemma {:induction false} EndingRecordCutsBatch(env: Environment, pre: seq<StreamRecord>, rec: StreamRecord,
                                                 post: seq<StreamRecord>)
    requires EndsBatch(rec)
    ensures FunctionHandler(env, pre + [rec] + post) == FunctionHandler(env, pre)
    ensures FunctionHandler(env, [rec] + post) == (Completed, [])
  {
    if |pre| == 0 {
      assert pre + [rec] + post == [rec] + post;
      assert ([rec] + post)[0] == rec;
    } else {
      var all := pre + [rec] + post;
      assert all[0] == pre[0];
      assert all[1..] == pre[1..] + [rec] + post;
      EndingRecordCutsBatch(env, pre[1..], rec, post);
      assert ([rec] + post)[0] == rec;
    }
  }

  /** A record that stops the loop decides the invocation: its completion is
      the handler's, its calls are the whole log, and the records after it
      are never looked at. */
  lemma StoppingRecordEndsBatch(env: Environment, rec: StreamRecord, post: seq<StreamRecord>)
    requires ProcessRecord(env, rec).step.Stop?
    ensures FunctionHandler(env, [rec] + post)
            == (ProcessRecord(env, rec).step.completion, ProcessRecord(env, rec).effects)
  {
    assert ([rec] + post)[0] == rec;
  }

  /** A record that lets the loop go on contributes its calls to the log,
      and the rest of the batch decides the invocation. */
  lemma ContinuingRecordPassesOn(env: Environment, rec: StreamRecord, post: seq<StreamRecord>)
    requires ProcessRecord(env, rec).step == Continue
    ensures FunctionHandler(env, [rec] + post)
            == (FunctionHandler(env, post).0, ProcessRecord(env, rec).effects + FunctionHandler(env, post).1)
  {
    assert ([rec] + post)[0] == rec;
    assert ([rec] + post)[1..] == post;
  }

  /** Everything goes right for the record: it is a confirmed `MODIFY` from
      DynamoDB, the callback gets a response, the three variables are set,
      the service answers with a token, and the API accepts the `Done` PUT. */
  predicate ServesRecord(env: Environment, rec: StreamRecord) {
    && Qualifies(rec)
    && env.post_callback(rec.new_image.value.callback_url, CallbackMessage(rec.new_image.value)) == Delivered
    && env.signature_function_name.Some? && env.service_url.Some? && env.api_key.Some?
    && var answer := env.invoke(env.signature_function_name.value, SignatureCreationRequestOf(rec.new_image.value));
       && answer.Decoded? && answer.response.Signature?
       && var put := env.put(StatusUrl(env.service_url.value, env.url_encode(rec.new_image.value.pk)),
                             env.api_key.value, DoneBody(answer.response.signature));
          put.PutAnswered? && !put.response.error
  }

  /** Such a record makes exactly three calls, the callback, the invoke and
      the PUT of `Done` with the token to its status route, and the loop
      goes on. */
  lemma ServedRecordContinues(env: Environment, rec: StreamRecord)
    requires ServesRecord(env, rec)
    ensures ProcessRecord(env, rec).step == Continue
    ensures var img := rec.new_image.value;
            var name := env.signature_function_name.value;
            var token := env.invoke(name, SignatureCreationRequestOf(img)).response.signature;
            ProcessRecord(env, rec).effects
            == [CallbackPosted(img.callback_url, CallbackMessage(img)),
                SignatureInvoked(name, SignatureCreationRequestOf(img)),
                StatusPut(StatusUrl(env.service_url.value, env.url_encode(img.pk)), env.api_key.value, DoneBody(token))]
  {
  }

  /** A batch in which everything goes right for every record completes
      with `Ok(())` after three calls per record, in record order: the
      callback to that record's URL first and the PUT to its status route
      last. */
  lemma {:induction false} ServedBatchCompletes(env: Environment, records: seq<StreamRecord>)
    requires forall k :: 0 <= k < |records| ==> ServesRecord(env, records[k])
    ensures FunctionHandler(env, records).0 == Completed
    ensures |FunctionHandler(env, records).1| == 3 * |records|
    ensures forall k :: 0 <= k < |records| && ServesRecord(env, records[k]) ==>
              var img := records[k].new_image.value;
              && FunctionHandler(env, records).1[3 * k] == CallbackPosted(img.callback_url, CallbackMessage(img))
              && FunctionHandler(env, records).1[3 * k + 2].StatusPut?
              && FunctionHandler(env, records).1[3 * k + 2].url
                 == StatusUrl(env.service_url.value, env.url_encode(img.pk))
  {
    if |records| > 0 {
      var rec := records[0];
      var post := records[1..];
      assert [rec] + post == records;
      ServedRecordContinues(env, rec);
      ServedBatchCompletes(env, post);
      ContinuingRecordPassesOn(env, rec, post);
      var head := ProcessRecord(env, rec).effects;
      var rest := FunctionHandler(env, post).1;
      var log := FunctionHandler(env, records).1;
      assert log == head + rest;
      forall k | 0 <= k < |records| && ServesRecord(env, records[k])
        ensures var img := records[k].new_image.value;
                && log[3 * k] == CallbackPosted(img.callback_url, CallbackMessage(img))
                && log[3 * k + 2].StatusPut?
                && log[3 * k + 2].url == StatusUrl(env.service_url.value, env.url_encode(img.pk))
      {
        if k > 0 {
          assert records[k] == post[k - 1];
          assert log[3 * k] == rest[3 * (k - 1)];
          assert log[3 * k + 2] == rest[3 * (k - 1) + 2];
        }
      }
    }
  }

  /** The effect is a call the handler makes on behalf of record image `r`. */
  ghost predicate Concerns(env: Environment, e: Effect, r: ConfirmationRequest) {
    match e
    case CallbackPosted(url, message) => url == r.callback_url && message == CallbackMessage(r)
    case SignatureInvoked(_, request) => request == SignatureCreationRequestOf(r)
    case StatusPut(url, _, body) =>
      && env.service_url.Some?
      && url == StatusUrl(env.service_url.value, env.url_encode(r.pk))
      && exists signature :: body == DoneBody(signature)
  }

  lemma ProcessRecordConcerns(env: Environment, rec: StreamRecord)
    ensures forall j :: 0 <= j < |ProcessRecord(env, rec).effects| ==>
              Qualifies(rec) && Concerns(env, ProcessRecord(env, rec).effects[j], rec.new_image.value)
  {
    var p := ProcessRecord(env, rec);
    if Qualifies(rec) {
      var img := rec.new_image.value;
      var signing := CreateSignature(env, img);
      if |p.effects| == 3 {
        var done := SetStatusToDone(env, img, signing.attempt.value);
        assert Concerns(env, p.effects[2], img) by {
          assert p.effects[2] == done.effects[0];
          assert p.effects[2].body == DoneBody(signing.attempt.value);
        }
      }
    }
  }

  /** The effect is made on behalf of some confirmed record of the batch. */
  ghost predicate ForConfirmedRecord(env: Environment, e: Effect, records: seq<StreamRecord>) {
    exists k :: 0 <= k < |records| && Qualifies(records[k]) && Concerns(env, e, records[k].new_image.value)
  }

  lemma ForConfirmedRecordOfTail(env: Environment, e: Effect, records: seq<StreamRecord>)
    requires |records| > 0 && ForConfirmedRecord(env, e, records[1..])
    ensures ForConfirmedRecord(env, e, records)
  {
    var k :| 0 <= k < |records[1..]| && Qualifies(records[1..][k]) && Concerns(env, e, records[1..][k].new_image.value);
    assert records[1..][k] == records[k + 1];
  }

  /** Every call in the log is made for a record of the batch that is a
      confirmed `MODIFY` from DynamoDB: callbacks go to that record's URL with
      its email, tokens are asked for that record, and `Done` goes to that
      record's status route. */
  lemma {:induction false} EffectsComeFromConfirmedRecords(env: Environment, records: seq<StreamRecord>)
    ensures forall j :: 0 <= j < |FunctionHandler(env, records).1| ==>
              ForConfirmedRecord(env, FunctionHandler(env, records).1[j], records)
  {
    if |records| > 0 {
      var p := ProcessRecord(env, records[0]);
      ProcessRecordConcerns(env, records[0]);
      var effects := FunctionHandler(env, records).1;
      forall j | 0 <= j < |p.effects|
        ensures ForConfirmedRecord(env, p.effects[j], records)
      {
        assert Qualifies(records[0]) && Concerns(env, p.effects[j], records[0].new_image.value);
      }
      if p.step.Continue? {
        EffectsComeFromConfirmedRecords(env, records[1..]);
        var rest := FunctionHandler(env, records[1..]).1;
        assert effects == p.effects + rest;
        forall j | 0 <= j < |effects|
          ensures ForConfirmedRecord(env, effects[j], records)
        {
          if j >= |p.effects| {
            var j' := j - |p.effects|;
            assert effects[j] == rest[j'];
            ForConfirmedRecordOfTail(env, rest[j'], records);
          }
        }
      }
    }
  }

  /** The PUT at position `j` of the log comes right after a callback the
      target accepted and a signature invoke that returned a token, and it
      sends that token. */
  ghost predicate DoneFollowsTokenAt(env: Environment, effects: seq<Effect>, j: int)
    requires 0 <= j < |effects|
  {
    && effects[j].StatusPut?
    && 2 <= j
    && effects[j - 2].CallbackPosted?
    && env.post_callback(effects[j - 2].url, effects[j - 2].message) == Delivered
    && effects[j - 1].SignatureInvoked?
    && exists token ::
         && env.invoke(effects[j - 1].function_name, effects[j - 1].request) == Decoded(Signature(token))
         && effects[j].body == DoneBody(token)
  }

  lemma ProcessRecordDoneFollowsToken(env: Environment, rec: StreamRecord)
    ensures forall j :: 0 <= j < |ProcessRecord(env, rec).effects| && ProcessRecord(env, rec).effects[j].StatusPut? ==>
              DoneFollowsTokenAt(env, ProcessRecord(env, rec).effects, j)
  {
    var effects := ProcessRecord(env, rec).effects;
    if Qualifies(rec) && |effects| == 3 {
      var img := rec.new_image.value;
      var signing := CreateSignature(env, img);
      assert signing.effects == [SignatureInvoked(env.signature_function_name.value, SignatureCreationRequestOf(img))];
      assert effects[1] == signing.effects[0];
      var token := signing.attempt.value;
      assert effects[2] == SetStatusToDone(env, img, token).effects[0];
      assert env.invoke(effects[1].function_name, effects[1].request) == Decoded(Signature(token));
      assert DoneFollowsTokenAt(env, effects, 2);
    }
    forall j | 0 <= j < |effects| && effects[j].StatusPut?
      ensures DoneFollowsTokenAt(env, effects, j)
    {
      assert Qualifies(rec) && |effects| == 3 && j == 2;
    }
  }

  lemma DoneFollowsTokenShift(env: Environment, pre: seq<Effect>, rest: seq<Effect>, j: int)
    requires 0 <= j < |rest| && DoneFollowsTokenAt(env, rest, j)
    ensures DoneFollowsTokenAt(env, pre + rest, |pre| + j)
  {
    var all := pre + rest;
    assert all[|pre| + j] == rest[j] && all[|pre| + j - 1] == rest[j - 1] && all[|pre| + j - 2] == rest[j - 2];
  }

  /** `Done` is never PUT unless the callback for that record was accepted
      and the signature service returned a token: in the log of any batch,
      each status PUT directly follows that callback and that invoke, and
      carries the token. */
  lemma {:induction false} DoneOnlyAfterCallbackAndToken(env: Environment, records: seq<StreamRecord>)
    ensures forall j :: 0 <= j < |FunctionHandler(env, records).1| && FunctionHandler(env, records).1[j].StatusPut? ==>
              DoneFollowsTokenAt(env, FunctionHandler(env, records).1, j)
  {
    if |records| > 0 {
      var p := ProcessRecord(env, records[0]);
      ProcessRecordDoneFollowsToken(env, records[0]);
      if p.step.Continue? {
        DoneOnlyAfterCallbackAndToken(env, records[1..]);
        var rest := FunctionHandler(env, records[1..]).1;
        var effects := FunctionHandler(env, records).1;
        assert effects == p.effects + rest;
        forall j | 0 <= j < |effects| && effects[j].StatusPut?
          ensures DoneFollowsTokenAt(env, effects, j)
        {
          if j < |p.effects| {
            assert effects[j] == p.effects[j] && effects[j - 1] == p.effects[j - 1] && effects[j - 2] == p.effects[j - 2];
          } else {
            assert effects[j] == rest[j - |p.effects|];
            assert DoneFollowsTokenAt(env, rest, j - |p.effects|);
            DoneFollowsTokenShift(env, p.effects, rest, j - |p.effects|);
          }
        }
      }
    }
  }

  /** The reply the signature service itself gives to a request, as the
      invoke sees it: a decoded response, or a Lambda error whose payload is
      not a `SignatureResponse`. */
  function ServiceAnswer(sha: SignatureService.Sha256, request: SignatureRequest): InvokeOutcome {
    match SignatureService.FunctionHandler(sha, request)
    case Ok(response) => Decoded(response)
    case Err(_) => Undecodable
  }

  /** When the invoke reaches the real signature service, the token the
      reactor sends with `Done` is one that verifies against the record it
      read from the stream. */
  lemma MintedTokenVerifies(env: Environment, sha: SignatureService.Sha256, r: ConfirmationRequest)
    requires env.signature_function_name.Some?
    requires env.invoke(env.signature_function_name.value, SignatureCreationRequestOf(r))
             == ServiceAnswer(sha, SignatureCreationRequestOf(r))
    ensures CreateSignature(env, r).attempt.Returned?
    ensures var token := CreateSignature(env, r).attempt.value;
            SignatureService.FunctionHandler(sha, SignatureVerificationRequestOf(r, token))
            == Ok(VerificationResult(Success))
  {
    SignatureService.RecordTokenRoundTrip(sha, r);
  }
}

=== FILE: confirmation_request.dfy ===
/** The confirmation-request record of the REST API crate
    (`email_confirmation_request.rs`): the minimal request a client posts,
    the full stored record, its sanitized projection, the primary key built
    from the three identity fields, the query parameters that resolve to a
    key, and the status with its `Display`. The callback reactor decodes the
    answer to its status PUT as the shared crate's
    `EmailConfirmationServiceApiResponse`, taken here to be the narrower
    shape the link-click crate declares; it lives here too, since it
    describes the same record. */
module ConfirmationRequests {
  import opened Wrappers
  import opened Text

  /** `EMAIL_REQUEST_EXPIRATION_PERIOD`: one hour, in seconds. */
  const ExpirationPeriod: nat := 60 * 60

  /** The separator inside a primary key. */
  const PkSeparator: char := '#'

  datatype Status = Queued | Pending | Confirmed | Expired | Done

  /** `Display for Status`: each variant prints as its own name. */
  function StatusName(s: Status): string {
    match s
    case Queued => "Queued"
    case Pending => "Pending"
    case Confirmed => "Confirmed"
    case Expired => "Expired"
    case Done => "Done"
  }

  /** The inverse of `StatusName` (what serde reads a unit variant from). */
  function ParseStatus(name: string): (r: Option<Status>)
    ensures r.Some? ==> StatusName(r.value) == name
  {
    if name == "Queued" then Some(Queued)
    else if name == "Pending" then Some(Pending)
    else if name == "Confirmed" then Some(Confirmed)
    else if name == "Expired" then Some(Expired)
    else if name == "Done" then Some(Done)
    else None
  }

  /** Every status prints as a name that reads back as that status, so
      distinct statuses print distinctly. */
  lemma StatusNameRoundTrip(s: Status, t: Status)
    ensures ParseStatus(StatusName(s)) == Some(s)
    ensures StatusName(s) == StatusName(t) ==> s == t
  {
  }

  /** `EmailConfirmationMinimalRequest`: the body of a creation call. */
  datatype MinimalRequest = MinimalRequest(
    email: string,
    client_id: string,
    request_id: string,
    callback_url: string)

  /** `EmailConfirmationRequest`: the stored record. */
  datatype ConfirmationRequest = ConfirmationRequest(
    pk: string,
    email: string,
    client_id: string,
    request_id: string,
    callback_url: string,
    signature_key: string,
    created_at: u64,
    expires_at: u64,
    updated_at: u64,
    status: Status)

  /** `SanitizedEmailConfirmationRequest`: the record without its signature key. */
  datatype SanitizedRequest = SanitizedRequest(
    pk: string,
    email: string,
    client_id: string,
    request_id: string,
    callback_url: string,
    created_at: u64,
    expires_at: u64,
    updated_at: u64,
    status: Status)

  /** `QueryParams` with the four fields `pk_from_query_params` destructures. */
  datatype QueryParams = QueryParams(
    email: Option<string>,
    client_id: Option<string>,
    request_id: Option<string>,
    expires_after: Option<u64>)

  /** `pk_from_params`: the three identity fields joined by `#`. */
  function PkFromParams(email: string, client_id: string, request_id: string): (pk: string)
    ensures pk == Join([email, client_id, request_id], PkSeparator)
    ensures |pk| == |email| + |client_id| + |request_id| + 2
    ensures NoneContains([email, client_id, request_id], PkSeparator) ==>
              Split(pk, PkSeparator) == [email, client_id, request_id]
  {
    var pk := email + [PkSeparator] + client_id + [PkSeparator] + request_id;
    assert [email, client_id, request_id][1..] == [client_id, request_id];
    assert [client_id, request_id][1..] == [request_id];
    assert Join([client_id, request_id], PkSeparator) == client_id + [PkSeparator] + request_id;
    assert pk == Join([email, client_id, request_id], PkSeparator);
    if NoneContains([email, client_id, request_id], PkSeparator) then
      SplitJoin([email, client_id, request_id], PkSeparator);
      pk
    else pk
  }

  /** Two keys built from `#`-free fields are equal only if the fields are. */
  lemma PkInjective(e1: string, c1: string, r1: string, e2: string, c2: string, r2: string)
    requires NoneContains([e1, c1, r1], PkSeparator) && NoneContains([e2, c2, r2], PkSeparator)
    ensures PkFromParams(e1, c1, r1) == PkFromParams(e2, c2, r2) ==> e1 == e2 && c1 == c2 && r1 == r2
  {
  }

  /** Without that condition keys collide: `#` is legal in an email address
      and nothing rejects it in a client or request id. */
  lemma PkCollision()
    ensures PkFromParams("a#b", "c", "d") == PkFromParams("a", "b#c", "d")
  {
    assert PkFromParams("a#b", "c", "d") == "a#b#c#d";
    assert PkFromParams("a", "b#c", "d") == "a#b#c#d";
  }

  /** Rust's derived `Debug` of an optional string. The string is quoted;
      the escaping `Debug` applies to quotes and control characters inside
      it is left out of this model. */
  function DebugOptionString(o: Option<string>): string {
    match o
    case None => "None"
    case Some(s) => "Some(\"" + s + "\")"
  }

  function DebugQueryParams(q: QueryParams): string {
    "QueryParams { email: " + DebugOptionString(q.email)
    + ", client_id: " + DebugOptionString(q.client_id)
    + ", request_id: " + DebugOptionString(q.request_id)
    + ", expires_after: " + (if q.expires_after.Some? then "Some(" + Decimal(q.expires_after.value) + ")" else "None")
    + " }"
  }

  const InvalidParametersPrefix: string := "Invalid parameters "

  /** `pk_from_query_params`: a key when email, client id and request id are
      all given (whatever `expires_after` is), an error otherwise. */
  function PkFromQueryParams(q: QueryParams): (r: Result<string, string>)
    ensures r.Ok? <==> q.email.Some? && q.client_id.Some? && q.request_id.Some?
    ensures r.Ok? ==> r.value == PkFromParams(q.email.value, q.client_id.value, q.request_id.value)
    ensures r.Err? ==> StartsWith(r.error, InvalidParametersPrefix)
  {
    if q.email.Some? && q.client_id.Some? && q.request_id.Some? then
      Ok(PkFromParams(q.email.value, q.client_id.value, q.request_id.value))
    else
      Err(InvalidParametersPrefix + DebugQueryParams(q))
  }

  /** The record's own invariants at creation: its key is built from its
      identity fields and it expires one period after it was created. */
  predicate WellFormed(r: ConfirmationRequest) {
    && r.pk == PkFromParams(r.email, r.client_id, r.request_id)
    && r.expires_at == r.created_at + ExpirationPeriod
    && r.created_at <= r.updated_at
  }

  /** The identity and callback fields of a record, as a creation call gives them. */
  function Minimal(r: ConfirmationRequest): MinimalRequest {
    MinimalRequest(r.email, r.client_id, r.request_id, r.callback_url)
  }

  /** `EmailConfirmationRequest::new`, with the fresh UUID `signature_key`
      and the clock reading `now` passed in. The source reads the clock three
      times; here all three readings are the one `now`. */
  function New(email: string, client_id: string, request_id: string, callback_url: string,
               signature_key: string, now: u64): (r: ConfirmationRequest)
    requires now + ExpirationPeriod < U64_LIMIT
    ensures WellFormed(r)
    ensures Minimal(r) == MinimalRequest(email, client_id, request_id, callback_url)
    ensures r.status == Queued && r.signature_key == signature_key
    ensures r.created_at == now && r.updated_at == now && r.expires_at == now + ExpirationPeriod
  {
    ConfirmationRequest(PkFromParams(email, client_id, request_id), email, client_id, request_id,
                        callback_url, signature_key, now, now + ExpirationPeriod, now, Queued)
  }

  /** `From<EmailConfirmationMinimalRequest> for EmailConfirmationRequest`:
      delegates to `New`, so the minimal request is recovered from the result. */
  function FromMinimal(m: MinimalRequest, signature_key: string, now: u64): (r: ConfirmationRequest)
    requires now + ExpirationPeriod < U64_LIMIT
    ensures Minimal(r) == m
    ensures WellFormed(r) && r.status == Queued
    ensures r.created_at == now && r.updated_at == now && r.signature_key == signature_key
  {
    New(m.email, m.client_id, m.request_id, m.callback_url, signature_key, now)
  }

  /** The record a sanitized projection came from, given back its key. */
  function WithSignatureKey(s: SanitizedRequest, signature_key: string): ConfirmationRequest {
    ConfirmationRequest(s.pk, s.email, s.client_id, s.request_id, s.callback_url, signature_key,
                        s.created_at, s.expires_at, s.updated_at, s.status)
  }

  /** `From<EmailConfirmationRequest> for SanitizedEmailConfirmationRequest`:
      drops exactly the signature key, so putting it back restores the record. */
  function Sanitize(r: ConfirmationRequest): (s: SanitizedRequest)
    ensures WithSignatureKey(s, r.signature_key) == r
  {
    SanitizedRequest(r.pk, r.email, r.client_id, r.request_id, r.callback_url,
                     r.created_at, r.expires_at, r.updated_at, r.status)
  }

  /** Two records sanitize alike exactly when they differ at most in their signature key. */
  lemma SanitizeForgetsOnlyKey(a: ConfirmationRequest, b: ConfirmationRequest)
    ensures Sanitize(a) == Sanitize(b) <==> a.(signature_key := b.signature_key) == b
  {
    if Sanitize(a) == Sanitize(b) {
      assert WithSignatureKey(Sanitize(a), b.signature_key) == b;
    }
  }

  /** The `SanitizedEmailConfirmationRequest` declared in the link-click
      crate: a narrower shape with neither the signature key nor the
      created/updated timestamps. */
  datatype PublicRequest = PublicRequest(
    pk: string,
    email: string,
    client_id: string,
    request_id: string,
    callback_url: string,
    expires_at: u64,
    status: Status)

  /** `EmailConfirmationServiceApiResponse`: an error flag with the record. */
  datatype ApiResponse = ApiResponse(error: bool, request: PublicRequest)

  /** What decoding the API's sanitized record into the narrower shape
      keeps (serde ignores the fields the narrower struct does not declare). */
  function PublicView(s: SanitizedRequest): (p: PublicRequest)
    ensures p.pk == s.pk && p.email == s.email && p.client_id == s.client_id
    ensures p.request_id == s.request_id && p.callback_url == s.callback_url
    ensures p.expires_at == s.expires_at && p.status == s.status
  {
    PublicRequest(s.pk, s.email, s.client_id, s.request_id, s.callback_url, s.expires_at, s.status)
  }

  /** The shared crate's API-response shape, taken to be the link-click
      crate's declaration, has no signature key, so nothing decoded into it
      depends on the key. */
  lemma PublicViewIgnoresKey(r: ConfirmationRequest, key: string)
    ensures PublicView(Sanitize(r)) == PublicView(Sanitize(r.(signature_key := key)))
  {
  }
}

=== FILE: hex.dfy ===
/** The `hex::encode` used to turn a SHA-256 digest into a token: two
    lowercase hexadecimal characters per byte, high nibble first. `Decode` is
    its partner, used to state what a token carries. */
module Hex {
  import opened Wrappers

  type byte = x: int | 0 <= x < 256

  const LowerHexDigits: string := "0123456789abcdef"

  predicate IsLowerHexChar(c: char) {
    '0' <= c <= '9' || 'a' <= c <= 'f'
  }

  predicate IsLowerHex(s: string) {
    forall i :: 0 <= i < |s| ==> IsLowerHexChar(s[i])
  }

  function NibbleChar(n: nat): (c: char)
    requires n < 16
    ensures IsLowerHexChar(c)
  {
    LowerHexDigits[n]
  }

  /** The nibble a lowercase hex character stands for; other characters
      (upper case included) stand for none. */
  function NibbleValue(c: char): (r: Option<nat>)
    ensures r.Some? <==> IsLowerHexChar(c)
    ensures r.Some? ==> r.value < 16 && NibbleChar(r.value) == c
  {
    if '0' <= c <= '9' then Some((c as int) - ('0' as int))
    else if 'a' <= c <= 'f' then Some((c as int) - ('a' as int) + 10)
    else None
  }

  /** `hex::encode`. */
  function Encode(bytes: seq<byte>): (s: string)
    ensures |s| == 2 * |bytes|
    ensures IsLowerHex(s)
  {
    if |bytes| == 0 then ""
    else [NibbleChar(bytes[0] / 16), NibbleChar(bytes[0] % 16)] + Encode(bytes[1..])
  }

  /** Reads a lowercase hex string back into bytes; odd lengths and
      characters outside `[0-9a-f]` are rejected. */
  function Decode(s: string): (r: Option<seq<byte>>)
    ensures r.Some? ==> 2 * |r.value| == |s|
  {
    if |s| < 2 then (if |s| == 0 then Some([]) else None)
    else
      var hi, lo, rest := NibbleValue(s[0]), NibbleValue(s[1]), Decode(s[2..]);
      if hi.Some? && lo.Some? && rest.Some? then Some([16 * hi.value + lo.value] + rest.value)
      else None
  }

  lemma NibbleRoundTrip(n: nat)
    requires n < 16
    ensures NibbleValue(NibbleChar(n)) == Some(n)
  {
  }

  /** Decoding undoes encoding. */
  lemma {:induction false} DecodeEncode(bytes: seq<byte>)
    ensures Decode(Encode(bytes)) == Some(bytes)
  {
    if |bytes| > 0 {
      var b := bytes[0];
      var hi, lo := b / 16, b % 16;
      JoinByte(b);
      var s := Encode(bytes);
      assert s == [NibbleChar(hi), NibbleChar(lo)] + Encode(bytes[1..]);
      assert s[0] == NibbleChar(hi) && s[1] == NibbleChar(lo) && s[2..] == Encode(bytes[1..]);
      DecodeEncode(bytes[1..]);
      NibbleRoundTrip(hi);
      NibbleRoundTrip(lo);
      assert Decode(s) == Some([16 * hi + lo] + bytes[1..]);
      assert [b] + bytes[1..] == bytes;
    }
  }

  /** Encoding undoes decoding: a string that decodes at all is exactly the
      encoding of what it decodes to. */
  lemma {:induction false} EncodeDecode(s: string, bytes: seq<byte>)
    requires Decode(s) == Some(bytes)
    ensures Encode(bytes) == s
  {
    if |s| > 0 {
      var hi := NibbleValue(s[0]).value;
      var lo := NibbleValue(s[1]).value;
      var rest := Decode(s[2..]).value;
      assert bytes == [16 * hi + lo] + rest;
      assert bytes[0] == 16 * hi + lo && bytes[1..] == rest;
      EncodeDecode(s[2..], rest);
      SplitByte(hi, lo);
      assert NibbleChar(bytes[0] / 16) == s[0] && NibbleChar(bytes[0] % 16) == s[1];
      assert Encode(bytes) == [s[0], s[1]] + Encode(rest);
      assert s == [s[0], s[1]] + s[2..];
    }
  }

  /** A byte is rebuilt from its two nibbles. */
  lemma JoinByte(b: byte)
    ensures b / 16 < 16 && b % 16 < 16 && 16 * (b / 16) + b % 16 == b
  {
  }

  /** A byte built from two nibbles splits back into them. */
  lemma SplitByte(hi: nat, lo: nat)
    requires hi < 16 && lo < 16
    ensures (16 * hi + lo) / 16 == hi && (16 * hi + lo) % 16 == lo
  {
  }

  /** A string decodes to some bytes exactly when it is their encoding. */
  lemma DecodeIffEncode(s: string, bytes: seq<byte>)
    ensures Decode(s) == Some(bytes) <==> Encode(bytes) == s
  {
    if Decode(s) == Some(bytes) {
      EncodeDecode(s, bytes);
    }
    if Encode(bytes) == s {
      DecodeEncode(bytes);
    }
  }

  /** Two byte strings have the same encoding only if they are equal. */
  lemma EncodeInjective(a: seq<byte>, b: seq<byte>)
    ensures Encode(a) == Encode(b) ==> a == b
  {
    DecodeEncode(a);
    DecodeEncode(b);
  }
}

=== FILE: json.dfy ===
/** The fragment of `serde_json::Value` the handlers build: the object bodies
    `json!({..})` produces, kept as ordered field lists. */
module Json {
  import opened Wrappers

  datatype Json =
    | JNull
    | JBool(b: bool)
    | JNumber(n: int)
    | JString(s: string)
    | JArray(items: seq<Json>)
    | JObject(fields: seq<(string, Json)>)

  /** The value of the first field named `key`, if there is one. */
  function Field(fields: seq<(string, Json)>, key: string): (r: Option<Json>)
    ensures r.Some? <==> exists i :: 0 <= i < |fields| && fields[i].0 == key
  {
    if |fields| == 0 then None
    else if fields[0].0 == key then Some(fields[0].1)
    else
      var r := Field(fields[1..], key);
      assert forall i :: 1 <= i < |fields| ==> fields[i] == fields[1..][i - 1];
      r
  }

  /** The string value of field `key` of an object, if it has one. */
  function StringField(v: Json, key: string): Option<string> {
    if v.JObject? then
      match Field(v.fields, key)
      case Some(JString(s)) => Some(s)
      case _ => None
    else None
  }

  /** The boolean value of field `key` of an object, if it has one. */
  function BoolField(v: Json, key: string): Option<bool> {
    if v.JObject? then
      match Field(v.fields, key)
      case Some(JBool(b)) => Some(b)
      case _ => None
    else None
  }
}

=== FILE: rest_api.dfy ===
/** The REST API's handlers (`email-confirmation-service-rest-api/src/handler.rs`):
    every route hands the service's `Result<Json>` to `result_to_response`,
    which picks the HTTP status. The service itself is out of reach (its
    methods are storage stubs), so each handler takes the service call as a
    function parameter; `NOT_FOUND_ERROR`, imported from the service module,
    whose text here does not declare it, is a parameter too. */
module RestApi {
  import opened Wrappers
  import opened Text
  import opened Json
  import opened ConfirmationRequests

  const OK: nat := 200
  const NOT_FOUND: nat := 404
  const BAD_REQUEST: nat := 400

  /** The `{"error": true, "message": ..}` body of a failed call. */
  function ErrorBody(message: string): Json {
    JObject([("error", JBool(true)), ("message", JString(message))])
  }

  /** The error body reads back as the error flag and the message. */
  lemma ErrorBodyReadsBack(message: string)
    ensures BoolField(ErrorBody(message), "error") == Some(true)
    ensures StringField(ErrorBody(message), "message") == Some(message)
  {
    var fs := ErrorBody(message).fields;
    assert fs[1..] == [("message", JString(message))];
    assert Field(fs, "message") == Field(fs[1..], "message");
  }

  /** `result_to_response`. A success passes its body through with 200. An
      error gets 404 when its message starts with `notFoundPrefix`, else 400,
      and its body is exactly the error flag and the message unchanged. */
  function ResultToResponse(notFoundPrefix: string, result: Result<Json, string>): (r: (nat, Json))
    ensures r.0 == OK || r.0 == NOT_FOUND || r.0 == BAD_REQUEST
    ensures r.0 == OK <==> result.Ok?
    ensures result.Ok? ==> r.1 == result.value
    ensures result.Err? ==> (r.0 == NOT_FOUND <==> StartsWith(result.error, notFoundPrefix))
    ensures result.Err? ==> r.1 == ErrorBody(result.error)
    ensures result.Err? ==> BoolField(r.1, "error") == Some(true)
    ensures result.Err? ==> StringField(r.1, "message") == Some(result.error)
  {
    match result
    case Ok(json) => (OK, json)
    case Err(error) =>
      ErrorBodyReadsBack(error);
      if StartsWith(error, notFoundPrefix) then (NOT_FOUND, ErrorBody(error))
      else (BAD_REQUEST, ErrorBody(error))
  }

  /** `post_email_confirmation_request`: the posted minimal request becomes a
      full `Queued` record through `From` (with the fresh key and clock
      reading passed in) before the service sees it; the response is the
      service's outcome mapped as above. */
  function PostEmailConfirmationRequest(
    service: ConfirmationRequest -> Result<Json, string>, notFoundPrefix: string,
    minimal: MinimalRequest, signature_key: string, now: u64): (r: (nat, Json))
    requires now + ExpirationPeriod < U64_LIMIT
    ensures exists rec: ConfirmationRequest ::
              && Minimal(rec) == minimal && WellFormed(rec) && rec.status == Queued
              && rec.created_at == now && rec.updated_at == now && rec.signature_key == signature_key
              && r == ResultToResponse(notFoundPrefix, service(rec))
  {
    var rec := FromMinimal(minimal, signature_key, now);
    ResultToResponse(notFoundPrefix, service(rec))
  }
}

=== FILE: signature_request.dfy ===
/** The messages exchanged with the signature service. The signature
    service crate and the send-email crate declare these types identically
    (`signature_request.rs` in each); they are defined once here. The
    constructors that build a signing request from a stored record are the
    send-email crate's. The callback reactor imports the same names from the
    shared crate and is taken to use these declarations. */
module SignatureRequests {
  import opened Wrappers
  import opened ConfirmationRequests

  /** `SignatureRequestType`: the tag saying which operation is asked for. */
  datatype RequestType = SignatureCreationRequest | SignatureVerificationRequest

  /** `SignatureCreationData`: the fields a signature is computed over. */
  datatype CreationData = CreationData(
    email: string,
    client_id: string,
    request_id: string,
    updated_at: u64,
    signature_key: string)

  /** `SignatureVerificationData`: the same fields and the value to check. */
  datatype VerificationData = VerificationData(
    email: string,
    client_id: string,
    request_id: string,
    updated_at: u64,
    signature_key: string,
    signature_value: string)

  /** `SignatureRequestPayload`: a variant per operation, carrying its data. */
  datatype RequestPayload =
    | CreationPayload(creation: CreationData)
    | VerificationPayload(verification: VerificationData)

  /** `SignatureRequest`: the tag and the payload are stored independently,
      so a request can carry a tag that disagrees with its payload. */
  datatype SignatureRequest = SignatureRequest(request_type: RequestType, payload: RequestPayload)

  datatype SignatureVerificationResult = Success | Fail

  /** `SignatureResponse`: a fresh token, or the outcome of a check. */
  datatype SignatureResponse =
    | Signature(signature: string)
    | VerificationResult(result: SignatureVerificationResult)

  /** The tag names the operation the payload carries data for. */
  predicate TagMatchesPayload(req: SignatureRequest) {
    req.request_type == SignatureCreationRequest <==> req.payload.CreationPayload?
  }

  /** The creation data with a value to check attached. */
  function WithSignatureValue(c: CreationData, value: string): VerificationData {
    VerificationData(c.email, c.client_id, c.request_id, c.updated_at, c.signature_key, value)
  }

  /** `From<SignatureVerificationData> for SignatureCreationData`: drops the
      value to check and nothing else, so re-attaching it restores the input. */
  function FromVerification(v: VerificationData): (c: CreationData)
    ensures WithSignatureValue(c, v.signature_value) == v
  {
    CreationData(v.email, v.client_id, v.request_id, v.updated_at, v.signature_key)
  }

  /** Attaching a value and converting back gives the creation data unchanged. */
  lemma FromVerificationOfWithSignatureValue(c: CreationData, value: string)
    ensures FromVerification(WithSignatureValue(c, value)) == c
  {
  }

  /** The data carries the record's email, client id, request id, last
      update time and signature key. */
  predicate CopiesSigningFields(c: CreationData, r: ConfirmationRequest) {
    && c.email == r.email
    && c.client_id == r.client_id
    && c.request_id == r.request_id
    && c.updated_at == r.updated_at
    && c.signature_key == r.signature_key
  }

  /** Two records agree on every field a signature is computed over. */
  predicate SameSigningFields(r1: ConfirmationRequest, r2: ConfirmationRequest) {
    && r1.email == r2.email
    && r1.client_id == r2.client_id
    && r1.request_id == r2.request_id
    && r1.updated_at == r2.updated_at
    && r1.signature_key == r2.signature_key
  }

  /** `SignatureRequest::signature_creation_request`. */
  function SignatureCreationRequestOf(r: ConfirmationRequest): (req: SignatureRequest)
    ensures TagMatchesPayload(req) && req.request_type == SignatureCreationRequest
    ensures CopiesSigningFields(req.payload.creation, r)
  {
    SignatureRequest(
      SignatureCreationRequest,
      CreationPayload(CreationData(r.email, r.client_id, r.request_id, r.updated_at, r.signature_key)))
  }

  /** `SignatureRequest::signature_verification_request`. */
  function SignatureVerificationRequestOf(r: ConfirmationRequest, signature: string): (req: SignatureRequest)
    ensures TagMatchesPayload(req) && req.request_type == SignatureVerificationRequest
    ensures CopiesSigningFields(FromVerification(req.payload.verification), r)
    ensures req.payload.verification.signature_value == signature
  {
    SignatureRequest(
      SignatureVerificationRequest,
      VerificationPayload(VerificationData(r.email, r.client_id, r.request_id, r.updated_at,
                                           r.signature_key, signature)))
  }

  /** Converting the verification payload built for a record gives exactly
      the creation payload built for it. */
  lemma VerificationPayloadConvertsToCreationPayload(r: ConfirmationRequest, signature: string)
    ensures FromVerification(SignatureVerificationRequestOf(r, signature).payload.verification)
            == SignatureCreationRequestOf(r).payload.creation
  {
  }

  /** Neither constructor looks at the key, callback URL, timestamps other
      than `updated_at`, or status of the record. */
  lemma RequestsDependOnlyOnSigningFields(r1: ConfirmationRequest, r2: ConfirmationRequest, signature: string)
    requires SameSigningFields(r1, r2)
    ensures SignatureCreationRequestOf(r1) == SignatureCreationRequestOf(r2)
    ensures SignatureVerificationRequestOf(r1, signature) == SignatureVerificationRequestOf(r2, signature)
  {
  }
}

=== FILE: signature_service.dfy ===
/** The signature service (`signature-service-lambda/src/event_handler.rs`):
    a capability token is the lowercase hex of the SHA-256 digest of
    `|email|client_id|request_id|signature_key|updated_at|`; verification
    recomputes the token and compares; the handler dispatches on the request's
    tag and payload together.

    SHA-256 itself is not modelled: it is the parameter `sha`, an arbitrary
    function from the preimage to 32 bytes. Everything proved here therefore
    holds for any such function; nothing relies on collision resistance. */
module SignatureService {
  import opened Wrappers
  import opened Text
  import Hex
  import opened SignatureRequests

  const DigestLength: nat := 32

  /** A SHA-256 output. */
  type Digest = d: seq<Hex.byte> | |d| == DigestLength witness seq(32, i => 0)

  /** SHA-256 over (the UTF-8 bytes of) a string. */
  type Sha256 = string -> Digest

  /** The field delimiter of the preimage. It is not escaped. */
  const Delimiter: char := '|'

  /** No text field of the data contains the delimiter (the decimal
      `updated_at` never does). */
  predicate DelimiterFree(d: CreationData) {
    NoneContains([d.email, d.client_id, d.request_id, d.signature_key], Delimiter)
  }

  /** The pieces the preimage is made of, in order, delimiters excluded. */
  function PreimageFields(d: CreationData): seq<string> {
    ["", d.email, d.client_id, d.request_id, d.signature_key, Decimal(d.updated_at), ""]
  }

  /** Five strings, each followed by the delimiter, after a leading
      delimiter: the join of the five with an empty piece at each end. */
  lemma FramedIsJoin(a: string, b: string, c: string, e: string, f: string)
    ensures "|" + (a + "|" + (b + "|" + (c + "|" + (e + "|" + (f + "|")))))
            == Join(["", a, b, c, e, f, ""], Delimiter)
  {
    var l5 := [f, ""];
    var l4 := [e] + l5;
    var l3 := [c] + l4;
    var l2 := [b] + l3;
    var l1 := [a] + l2;
    assert [""] + l1 == ["", a, b, c, e, f, ""];
    JoinCons(f, [""], Delimiter);
    assert Join(l5, Delimiter) == f + "|";
    JoinCons(e, l5, Delimiter);
    JoinCons(c, l4, Delimiter);
    JoinCons(b, l3, Delimiter);
    JoinCons(a, l2, Delimiter);
    JoinCons("", l1, Delimiter);
    assert "" + "|" == "|";
  }

  /** `format!("|{}|{}|{}|{}|{}|", email, client_id, request_id, signature_key, updated_at)`,
      each field followed by its delimiter: the join of `PreimageFields` by
      the delimiter, so it starts and ends with the delimiter and has one
      between fields. */
  function Preimage(d: CreationData): (p: string)
    ensures p == Join(PreimageFields(d), Delimiter)
  {
    FramedIsJoin(d.email, d.client_id, d.request_id, d.signature_key, Decimal(d.updated_at));
    "|" + (d.email + "|" + (d.client_id + "|" + (d.request_id + "|" + (d.signature_key + "|" + (Decimal(d.updated_at) + "|")))))
  }

  /** When no field contains the delimiter, splitting the preimage on it
      gives back exactly the fields, with an empty piece at each end. */
  lemma PreimageSplits(d: CreationData)
    requires DelimiterFree(d)
    ensures Split(Preimage(d), Delimiter) == PreimageFields(d)
  {
    var dec := Decimal(d.updated_at);
    assert Delimiter !in dec;
    var free := [d.email, d.client_id, d.request_id, d.signature_key];
    assert free[0] == d.email && free[1] == d.client_id && free[2] == d.request_id && free[3] == d.signature_key;
    var fs := PreimageFields(d);
    forall i | 0 <= i < |fs|
      ensures Delimiter !in fs[i]
    {
      if 1 <= i <= 4 {
        assert fs[i] == free[i - 1];
      }
    }
    SplitJoin(PreimageFields(d), Delimiter);
  }

  /** Reads a preimage back into the data it was built from. */
  function ParsePreimage(p: string): Option<CreationData> {
    var parts := Split(p, Delimiter);
    if |parts| == 7 && parts[0] == "" && parts[6] == "" then
      match ParseDecimal(parts[5])
      case Some(n) =>
        if n < U64_LIMIT then Some(CreationData(parts[1], parts[2], parts[3], n, parts[4])) else None
      case None => None
    else None
  }

  /** When no field contains the delimiter, the preimage determines the data. */
  lemma PreimageRoundTrip(d: CreationData)
    requires DelimiterFree(d)
    ensures ParsePreimage(Preimage(d)) == Some(d)
  {
    PreimageSplits(d);
    DecimalRoundTrip(d.updated_at, "");
  }

  /** Hence distinct delimiter-free data have distinct preimages. */
  lemma PreimageInjective(d1: CreationData, d2: CreationData)
    requires DelimiterFree(d1) && DelimiterFree(d2)
    ensures Preimage(d1) == Preimage(d2) ==> d1 == d2
  {
    PreimageRoundTrip(d1);
    PreimageRoundTrip(d2);
  }

  /** With the other four fields fixed, distinct `updated_at` values give
      distinct preimages, whatever the fields contain. */
  lemma PreimageDistinguishesUpdatedAt(d: CreationData, u: u64)
    requires u != d.updated_at
    ensures Preimage(d) != Preimage(d.(updated_at := u))
  {
    var d' := d.(updated_at := u);
    var a, b := Decimal(d.updated_at), Decimal(u);
    if Preimage(d) == Preimage(d') {
      var t5, t5' := a + "|", b + "|";
      var t4, t4' := d.signature_key + "|" + t5, d.signature_key + "|" + t5';
      var t3, t3' := d.request_id + "|" + t4, d.request_id + "|" + t4';
      var t2, t2' := d.client_id + "|" + t3, d.client_id + "|" + t3';
      var t1, t1' := d.email + "|" + t2, d.email + "|" + t2';
      CancelLeft("|", t1, t1');
      CancelLeft(d.email + "|", t2, t2');
      CancelLeft(d.client_id + "|", t3, t3');
      CancelLeft(d.request_id + "|", t4, t4');
      CancelLeft(d.signature_key + "|", t5, t5');
      assert a == t5[..|t5| - 1] && b == t5'[..|t5'| - 1];
      DecimalInjective(d.updated_at, u);
    }
  }

  /** `create_signature`: the hex of the digest of the preimage. The token is
      64 lowercase hex characters and decodes to exactly that digest. */
  function CreateSignature(sha: Sha256, d: CreationData): (token: string)
    ensures |token| == 2 * DigestLength && Hex.IsLowerHex(token)
    ensures Hex.Decode(token) == Some(sha(Preimage(d)))
  {
    Hex.DecodeEncode(sha(Preimage(d)));
    Hex.Encode(sha(Preimage(d)))
  }

  /** `verify_signature`: succeeds exactly when the value to check is the hex
      of the digest of the preimage of the other five fields. */
  function VerifySignature(sha: Sha256, v: VerificationData): (r: SignatureVerificationResult)
    ensures r == Success <==> Hex.Decode(v.signature_value) == Some(sha(Preimage(FromVerification(v))))
  {
    Hex.DecodeIffEncode(v.signature_value, sha(Preimage(FromVerification(v))));
    if CreateSignature(sha, FromVerification(v)) == v.signature_value then Success else Fail
  }

  /** Verification accepts the value `create_signature` gives for the same
      fields and nothing else. */
  lemma VerifyAcceptsOnlyTheSignature(sha: Sha256, v: VerificationData)
    ensures VerifySignature(sha, v) == Success <==> v.signature_value == CreateSignature(sha, FromVerification(v))
  {
    var digest := sha(Preimage(FromVerification(v)));
    if Hex.Decode(v.signature_value) == Some(digest) {
      Hex.EncodeDecode(v.signature_value, digest);
    }
  }

  /** Round trip: the token just minted for some fields verifies against them. */
  lemma SignThenVerify(sha: Sha256, d: CreationData)
    ensures VerifySignature(sha, WithSignatureValue(d, CreateSignature(sha, d))) == Success
  {
    FromVerificationOfWithSignatureValue(d, CreateSignature(sha, d));
  }

  /** The textual form of a UUID: 36 characters, hyphens at 8, 13, 18, 23. */
  predicate IsUuidText(s: string) {
    |s| == 36 && s[8] == '-' && s[13] == '-' && s[18] == '-' && s[23] == '-'
  }

  /** A value that is not 64 lowercase hex characters never verifies. */
  lemma MalformedValueFails(sha: Sha256, v: VerificationData)
    requires |v.signature_value| != 2 * DigestLength || !Hex.IsLowerHex(v.signature_value)
    ensures VerifySignature(sha, v) == Fail
  {
    VerifyAcceptsOnlyTheSignature(sha, v);
  }

  /** In particular a UUID (36 characters, with hyphens) never verifies. */
  lemma UuidNeverVerifies(sha: Sha256, v: VerificationData)
    requires IsUuidText(v.signature_value)
    ensures VerifySignature(sha, v) == Fail
  {
    assert !Hex.IsLowerHexChar(v.signature_value[8]);
    MalformedValueFails(sha, v);
  }

  const InvalidRequest: string := "Invalid request"

  /** `function_handler`: a creation tag with a creation payload yields a
      signature, a verification tag with a verification payload yields a
      verification result, and a tag that disagrees with its payload is
      rejected. */
  function FunctionHandler(sha: Sha256, req: SignatureRequest): (r: Result<SignatureResponse, string>)
    ensures r.Ok? <==> TagMatchesPayload(req)
    ensures r.Err? ==> r.error == InvalidRequest
    ensures r.Ok? && req.payload.CreationPayload? ==>
              r.value.Signature? && Hex.Decode(r.value.signature) == Some(sha(Preimage(req.payload.creation)))
    ensures r.Ok? && req.payload.VerificationPayload? ==>
              var v := req.payload.verification;
              r.value.VerificationResult?
              && (r.value.result == Success <==> Hex.Decode(v.signature_value) == Some(sha(Preimage(FromVerification(v)))))
  {
    match (req.request_type, req.payload)
    case (SignatureCreationRequest, CreationPayload(data)) =>
      Ok(Signature(CreateSignature(sha, data)))
    case (SignatureVerificationRequest, VerificationPayload(data)) =>
      Ok(VerificationResult(VerifySignature(sha, data)))
    case _ =>
      Err(InvalidRequest)
  }

  /** The requests the send-email crate builds for a record complete the
      round trip: the token the service mints for the record verifies
      against the same record. */
  lemma RecordTokenRoundTrip(sha: Sha256, r: ConfirmationRequests.ConfirmationRequest)
    ensures FunctionHandler(sha, SignatureCreationRequestOf(r)).Ok?
    ensures FunctionHandler(sha, SignatureCreationRequestOf(r)).value.Signature?
    ensures var token := FunctionHandler(sha, SignatureCreationRequestOf(r)).value.signature;
            FunctionHandler(sha, SignatureVerificationRequestOf(r, token)) == Ok(VerificationResult(Success))
  {
    var token := FunctionHandler(sha, SignatureCreationRequestOf(r)).value.signature;
    VerificationPayloadConvertsToCreationPayload(r, token);
    VerifyAcceptsOnlyTheSignature(sha, SignatureVerificationRequestOf(r, token).payload.verification);
  }
}

=== FILE: text.dfy ===
/** String building blocks the components share: Rust's `{}` rendering of an
    unsigned integer, `str::split` on one character and its inverse (joining
    with a separator), `starts_with`, and character counting. Each builder
    comes with the parser that undoes it. */
module Text {
  import opened Wrappers

  predicate IsDigit(c: char) {
    '0' <= c <= '9'
  }

  predicate AllDigits(s: string) {
    forall i :: 0 <= i < |s| ==> IsDigit(s[i])
  }

  function DigitChar(d: nat): (c: char)
    requires d < 10
    ensures IsDigit(c)
  {
    "0123456789"[d]
  }

  function DigitValue(c: char): (d: nat)
    requires IsDigit(c)
    ensures d < 10 && DigitChar(d) == c
  {
    (c as int) - ('0' as int)
  }

  /** Rust's `{}` formatting of an unsigned integer: the shortest decimal
      numeral, no sign, no leading zero. */
  function Decimal(n: nat): (s: string)
    ensures |s| >= 1
    ensures AllDigits(s)
    ensures s[0] == '0' ==> n == 0
  {
    if n < 10 then [DigitChar(n)] else Decimal(n / 10) + [DigitChar(n % 10)]
  }

  /** The value of a string of decimal digits, read most significant first. */
  function DigitsValue(s: string): nat
    requires AllDigits(s)
  {
    if |s| == 0 then 0 else 10 * DigitsValue(s[..|s| - 1]) + DigitValue(s[|s| - 1])
  }

  /** A numeral `Decimal` can produce: non-empty digits, no leading zero. */
  predicate IsCanonicalDecimal(s: string) {
    |s| >= 1 && AllDigits(s) && (s[0] == '0' ==> |s| == 1)
  }

  /** Reads back a canonical numeral; anything else is rejected. What it
      accepts is exactly the rendering of the value it returns. */
  function ParseDecimal(s: string): (r: Option<nat>)
    ensures r.Some? <==> IsCanonicalDecimal(s)
    ensures r.Some? ==> Decimal(r.value) == s
  {
    if IsCanonicalDecimal(s) then
      DecimalOfDigitsValue(s);
      Some(DigitsValue(s))
    else None
  }

  lemma {:induction false} DigitsValueOfDecimal(n: nat)
    ensures DigitsValue(Decimal(n)) == n
  {
    if n >= 10 {
      var s := Decimal(n);
      assert s[..|s| - 1] == Decimal(n / 10);
      DigitsValueOfDecimal(n / 10);
    }
  }

  /** A numeral whose first digit is not zero has a positive value. */
  lemma {:induction false} DigitsValuePositive(s: string)
    requires |s| >= 1 && AllDigits(s) && s[0] != '0'
    ensures DigitsValue(s) >= 1
  {
    if |s| > 1 {
      DigitsValuePositive(s[..|s| - 1]);
    }
  }

  lemma {:induction false} DecimalOfDigitsValue(s: string)
    requires IsCanonicalDecimal(s)
    ensures Decimal(DigitsValue(s)) == s
  {
    if |s| > 1 {
      var init := s[..|s| - 1];
      DigitsValuePositive(init);
      DecimalOfDigitsValue(init);
      var n := DigitsValue(s);
      assert n / 10 == DigitsValue(init) && n % 10 == DigitValue(s[|s| - 1]);
      assert s == init + [s[|s| - 1]];
    }
  }

  /** Decimal rendering and parsing are inverse to each other, in both directions. */
  lemma DecimalRoundTrip(n: nat, s: string)
    ensures ParseDecimal(Decimal(n)) == Some(n)
    ensures ParseDecimal(s) == Some(n) ==> Decimal(n) == s
  {
    DigitsValueOfDecimal(n);
    if ParseDecimal(s) == Some(n) {
      DecimalOfDigitsValue(s);
    }
  }

  /** Distinct numbers render as distinct numerals. */
  lemma DecimalInjective(m: nat, n: nat)
    ensures Decimal(m) == Decimal(n) ==> m == n
  {
    DecimalRoundTrip(m, Decimal(n));
    DecimalRoundTrip(n, Decimal(n));
  }

  /** Rust's `str::split(sep)`: the maximal separator-free pieces, in order,
      including empty ones; the empty string splits into one empty piece. */
  function Split(s: string, sep: char): (parts: seq<string>)
    ensures |parts| >= 1
    ensures forall i :: 0 <= i < |parts| ==> sep !in parts[i]
  {
    if |s| == 0 then [""]
    else
      var rest := Split(s[1..], sep);
      if s[0] == sep then [""] + rest else [[s[0]] + rest[0]] + rest[1..]
  }

  /** The pieces written out with one separator between neighbours. */
  function Join(parts: seq<string>, sep: char): string
    requires |parts| >= 1
  {
    if |parts| == 1 then parts[0] else parts[0] + [sep] + Join(parts[1..], sep)
  }

  lemma JoinCons(a: string, rest: seq<string>, sep: char)
    requires |rest| >= 1
    ensures Join([a] + rest, sep) == a + [sep] + Join(rest, sep)
  {
    assert ([a] + rest)[1..] == rest;
  }

  predicate NoneContains(parts: seq<string>, sep: char) {
    forall i :: 0 <= i < |parts| ==> sep !in parts[i]
  }

  lemma {:induction false} SplitFree(s: string, sep: char)
    requires sep !in s
    ensures Split(s, sep) == [s]
  {
    if |s| > 0 {
      SplitFree(s[1..], sep);
      assert [s[0]] + s[1..] == s;
    }
  }

  lemma {:induction false} SplitAtSeparator(a: string, sep: char, rest: string)
    requires sep !in a
    ensures Split(a + [sep] + rest, sep) == [a] + Split(rest, sep)
  {
    if |a| == 0 {
      assert a + [sep] + rest == [sep] + rest;
      assert ([sep] + rest)[1..] == rest;
    } else {
      var s := a + [sep] + rest;
      assert s[0] == a[0];
      assert s[1..] == a[1..] + [sep] + rest;
      SplitAtSeparator(a[1..], sep, rest);
      assert [a[0]] + a[1..] == a;
    }
  }

  /** Splitting undoes joining, provided no piece contains the separator. */
  lemma {:induction false} SplitJoin(parts: seq<string>, sep: char)
    requires |parts| >= 1 && NoneContains(parts, sep)
    ensures Split(Join(parts, sep), sep) == parts
  {
    if |parts| == 1 {
      SplitFree(parts[0], sep);
    } else {
      SplitJoin(parts[1..], sep);
      SplitAtSeparator(parts[0], sep, Join(parts[1..], sep));
      assert [parts[0]] + parts[1..] == parts;
    }
  }

  /** Joining undoes splitting, for every string. */
  lemma {:induction false} JoinSplit(s: string, sep: char)
    ensures Join(Split(s, sep), sep) == s
  {
    if |s| > 0 {
      JoinSplit(s[1..], sep);
      var rest := Split(s[1..], sep);
      if s[0] == sep {
        assert ([""] + rest)[1..] == rest;
      } else {
        var parts := [[s[0]] + rest[0]] + rest[1..];
        if |rest| == 1 {
          assert Join(parts, sep) == [s[0]] + rest[0];
        } else {
          assert parts[1..] == rest[1..];
          assert Join(rest, sep) == rest[0] + [sep] + Join(rest[1..], sep);
        }
      }
    }
  }

  /** Two joins of separator-free pieces are equal only when the pieces are. */
  lemma JoinInjective(a: seq<string>, b: seq<string>, sep: char)
    requires |a| >= 1 && |b| >= 1 && NoneContains(a, sep) && NoneContains(b, sep)
    ensures Join(a, sep) == Join(b, sep) ==> a == b
  {
    SplitJoin(a, sep);
    SplitJoin(b, sep);
  }

  /** A common prefix cancels. */
  lemma CancelLeft(a: string, x: string, y: string)
    requires a + x == a + y
    ensures x == y
  {
    assert x == (a + x)[|a|..];
    assert y == (a + y)[|a|..];
  }

  /** Rust's `str::starts_with`. */
  predicate StartsWith(s: string, prefix: string) {
    |prefix| <= |s| && s[..|prefix|] == prefix
  }

  /** The number of occurrences of `c` in `s`. */
  function Count(s: string, c: char): (n: nat)
    ensures n <= |s|
    ensures n == 0 <==> c !in s
  {
    if |s| == 0 then 0 else (if s[0] == c then 1 else 0) + Count(s[1..], c)
  }

  lemma {:induction false} CountConcat(a: string, b: string, c: char)
    ensures Count(a + b, c) == Count(a, c) + Count(b, c)
  {
    if |a| > 0 {
      assert (a + b)[1..] == a[1..] + b;
      CountConcat(a[1..], b, c);
    } else {
      assert a + b == b;
    }
  }
}

=== FILE: wrappers.dfy ===
/** Failure-carrying datatypes shared by every component, named after the
    Rust types they stand for, and the unsigned 64-bit integer the records
    use for their timestamps. */
module Wrappers {

  /** Rust's `Option<T>`. */
  datatype Option<+T> = None | Some(value: T)

  /** Rust's `Result<T, E>`. */
  datatype Result<+T, +E> = Ok(value: T) | Err(error: E)

  /** One more than the largest `u64`. */
  const U64_LIMIT: int := 0x1_0000_0000_0000_0000

  /** Rust's `u64`: the seconds-since-epoch timestamps of a record. */
  type u64 = x: int | 0 <= x < U64_LIMIT
}
